=== FILE: README.md ===
# Pomodoro app back end: billing, Todoist, feedback, rankings and offline shell

This project is a Dafny model of the server-side handlers of a Pomodoro timer web app, plus its service worker. It covers:

- **Billing state machine.** A payment-gateway webhook keeps an event ledger and merges subscription state into a per-user record. A client-triggered pull sync, a key-guarded admin backfill, cancellation at period end and a billing-portal precondition also write or read that state.
- **Access evaluator and self-healing verification.** A stored status record decides the caller's access. When the record is missing, the gateway is searched by the caller's email and what is found is written back.
- **Checkout.** The requested purchase is validated and a checkout session is configured and tagged with the caller's id.
- **Todoist connection.** A one-time state with a ten-minute lifetime, a callback that consumes it and stores the token, and a task import that clears a rejected token.
- **Feedback endpoint.** A per-address sliding-window rate limiter sits in front of message validation.
- **Daily ranking job.** Weekly minutes, a descending ranking, a rounded percentile and batched writes of at most 450 rows.
- **Service worker.** Cache-first fetching, a bypass for video hosts, cleanup of stale caches on activate, and pre-caching of the app shell on install.

Every handler is a pure function of explicit inputs:

- the document store, a map from literal document path to a flat field map;
- the gateway's answers: a snapshot of its read results, plus the result of each mutating call;
- the caller;
- the clock;
- the random state token;
- whether a store write succeeds, where the handler reacts to that.

Each handler returns the new store and its response. The billing handlers other than the admin backfill also return the outbound gateway requests they made. The Todoist handlers return the token request or the token they sent.

Document paths are kept literal. The webhook and the portal address `users/{uid}/subscription`. Verification, sync, cancellation and the admin backfill address `users/{uid}/subscription/status`. The model proves that these are different documents (`Store.StatusPathIsNotWebhookPath`). Its consequences for the code as written are stated in two lemmas:

- the webhook never touches a status record (`Webhooks.WebhookLeavesStatusRecords`);
- the portal ignores one (`Portal.PortalIgnoresStatusRecord`).

Files (one module each, except `billing.dfy`, which also holds `StripeHelpers`):

- `common.dfy`: options, results, error codes and the JavaScript string operations used.
- `store.dfy`: the document store, with merge, set, update and delete writes.
- `billing.dfy`: gateway objects, the record field sets, and the construct-once client handles.
- `access.dfy`: `getTier` and the access decision.
- `webhooks.dfy`, `verify_subscription.dfy`, `sync_checkout.dfy`, `admin_sync.dfy`, `cancel_subscription.dfy`, `portal.dfy`, `checkout.dfy`: the billing handlers.
- `todoist_oauth.dfy`, `todoist_import.dfy`: the Todoist handlers.
- `feedback.dfy`, `user_stats.dfy`, `service_worker.dfy`: the feedback endpoint, the ranking job and the service worker.

## Model

| member | source | states |
|---|---|---|
| StripeHelpers.PremiumStatusesExact | functions/src/utils/stripe-helpers.ts:37 | The premium statuses are exactly active, trialing, past_due and lifetime; canceled and none grant nothing. |
| StripeHelpers.GetStripe | functions/src/utils/stripe-helpers.ts:13-24 | With no client yet, the client is built exactly when the secret key is set, with that key and the fixed API version, and is remembered. An existing client is returned as is. |
| StripeHelpers.GetStripeConstructsOnce | functions/src/utils/stripe-helpers.ts:13-23 | Once built, every later `getStripe()` returns the same client and leaves the handles unchanged, whatever the environment says then. |
| StripeHelpers.GetDb | functions/src/utils/stripe-helpers.ts:29-34 | The first call stores the constructed store client; later calls return the stored one. |
| StripeHelpers.GetDbConstructsOnce | functions/src/utils/stripe-helpers.ts:29-34 | A second `getDb()` returns the first call's client, whatever a new construction would give. |
| Common.Contains | functions/src/stripe/verify-subscription.ts:106 | `includes` holds exactly when the substring occurs at some index. |
| Common.TrimEmptyIffBlank | functions/src/feedback.ts:43 | `trim()` gives the empty string exactly when every character is white space. |
| Store.Merge | functions/src/stripe/webhooks.ts:106-117 | A merge write adds the path, and fields it names take the new values. Other fields of the document and all other documents keep theirs. |
| Store.Overwrite | functions/src/stripe/admin-sync.ts:53-61 | A plain set replaces the document wholesale and leaves all other documents alone. |
| Store.Update | functions/src/stripe/cancel-subscription.ts:39-42 | `update` fails on a missing document and otherwise acts as a merge. |
| Store.MergeIdempotent | functions/src/stripe/webhooks.ts:146-155 | Merging the same fields twice leaves what merging once leaves. |
| Store.StatusPathIsNotWebhookPath | functions/src/stripe/webhooks.ts:106 | `users/{a}/subscription/status` is never `users/{b}/subscription`. |
| Store.CollectionsAreDisjoint | functions/src/stripe/webhooks.ts:53 | Ledger entries and OAuth states never share a path with each other or with any user document, status record or webhook record. |
| Store.UserPathIsNoRecordPath | functions/src/todoist/import-tasks.ts:37 | A user document is never a status or webhook record of any user, provided the user's id holds no '/'. |
| Store.StatusPathInjective | functions/src/stripe/verify-subscription.ts:22 | Different users have different status record paths. |
| Billing.PriceIdOf | functions/src/stripe/webhooks.ts:110 | The price id is non-null exactly when the first item has a non-empty price, and then it is that price. |
| Billing.SubscriptionRecord | functions/src/stripe/sync-checkout.ts:44-55 | The recurring record has exactly the seven fields the checkout paths write. |
| Billing.LifetimeRecord | functions/src/stripe/sync-checkout.ts:59-67 | The lifetime record has exactly status=lifetime, paymentIntentId, customerId and updatedAt. |
| Access.GetTier | functions/src/stripe/verify-subscription.ts:103-108 | lifetime if the status is lifetime; otherwise no tier without a truthy price id, monthly if the price id contains "monthly", yearly otherwise. A non-string truthy price id throws. |
| Access.Or | functions/src/stripe/verify-subscription.ts:32-33 | The fallback form yields `v` exactly when `v` is truthy, and the fallback otherwise. |
| Access.Evaluate | functions/src/stripe/verify-subscription.ts:24-35 | Access is granted exactly for a premium status, and the grace period exactly for past_due. The status and tier come from the record. The period end defaults to null and the cancel flag to false. It fails only when `getTier` throws. |
| Access.LifetimeAndGraceImplyAccess | functions/src/stripe/verify-subscription.ts:26-31 | A lifetime tier, and a grace period, each come with access. |
| Access.AccessTotality | functions/src/stripe/verify-subscription.ts:26 | For each of the six lifecycle statuses the record evaluates, and grants access exactly for the four premium ones. |
| Webhooks.EffectOf | functions/src/stripe/webhooks.ts:85-217 | Checkout merges the full recurring or lifetime field set for the session's user, and nothing without a user or for another mode. An update merges exactly five fields. A deletion merges canceled with canceledAt. A failed payment merges the retrieved status with lastPaymentError. A missing id writes nothing, a failed retrieve throws, and other types write nothing. |
| Webhooks.ProcessEvent | functions/src/stripe/webhooks.ts:85-217 | Processing throws exactly when the effect is a throw, writes nothing for no effect, and otherwise merges into `users/{uid}/subscription`. It never removes a document. |
| Webhooks.HandleWebhook | functions/src/stripe/webhooks.ts:15-79 | A wrong method gives 405, a missing signature 400, a missing secret 500 and a bad signature 400, each with no write. An admitted request whose event id is known gives "Already processed", with no write and no gateway request. A new id gets a ledger entry and "Webhook received" even when processing throws, and only then are the processing's gateway requests made. |
| Webhooks.RequestsOf | functions/src/stripe/webhooks.ts:85-193 | Processing makes at most one request, a subscription retrieve, and only for a checkout or a failed payment. |
| Webhooks.TypeNameSelectsBranch | functions/src/stripe/webhooks.ts:89 | For a well-formed payload, the event type names exactly one of the four handled branches, or none for an unhandled payload. |
| Webhooks.LedgerEntrySurvives | functions/src/stripe/webhooks.ts:63-78 | Processing never overwrites the ledger entry of the event being processed. |
| Webhooks.ProcessEventIdempotent | functions/src/stripe/webhooks.ts:146-155 | With the gateway and the clock fixed, processing an event twice equals processing it once. |
| Webhooks.RedeliveryIsNoOp | functions/src/stripe/webhooks.ts:53-60 | Redelivering an admitted event is acknowledged as already processed, changes nothing and makes no gateway request. |
| Webhooks.LedgerOnlyGrows | functions/src/stripe/webhooks.ts:53-67 | A delivery never removes or alters an existing ledger entry. |
| Webhooks.UpdatedPreservesOtherFields | functions/src/stripe/webhooks.ts:146-155 | An update event writes the five fields. Every other field of the record, such as customerId, subscriptionId and paymentIntentId, keeps its value, and no other document changes. |
| Webhooks.DeletedMarksCanceled | functions/src/stripe/webhooks.ts:161-181 | A deletion sets canceled and canceledAt and keeps every other field. Without the user id it writes nothing. |
| Webhooks.CheckoutSubscriptionScenario | functions/src/stripe/webhooks.ts:63-117 | A first delivery of a completed recurring checkout leaves a record at the webhook path with the retrieved status and the session's subscription id. |
| Webhooks.CheckoutSubscriptionEffect | functions/src/stripe/webhooks.ts:101-117 | The recurring checkout branch merges the retrieved subscription's record for the session's user. |
| Webhooks.WebhookLeavesStatusRecords | functions/src/stripe/webhooks.ts:106 | As written, no webhook delivery creates, removes or changes any `users/{uid}/subscription/status` record. |
| Verification.FindPaidOneTime | functions/src/stripe/verify-subscription.ts:82 | `find` returns the first paid one-time session, and none exactly when there is none. |
| Verification.SubscriptionDecision | functions/src/stripe/verify-subscription.ts:69-77 | The decision after a subscription backfill: access iff premium status, grace iff past_due, and the status and tier of the backfilled data. |
| Verification.BackfillSubscription | functions/src/stripe/verify-subscription.ts:53-77 | The backfill writes only the caller's status record. Read back through the cached path, that record gives the same decision. |
| Verification.BackfillLifetime | functions/src/stripe/verify-subscription.ts:84-94 | As above, for the lifetime record. |
| Verification.SelfHeal | functions/src/stripe/verify-subscription.ts:42-100 | The gateway search never throws, makes at most three requests, and writes only the caller's missing record, which reads back as the answer. It fails closed: whenever nothing is written the answer is none. An unconfigured gateway answers none with no request. No customer for the email, a failed customer, subscription or session search, and a failed backfill write each answer none with no write. |
| Verification.VerifySubscription | functions/src/stripe/verify-subscription.ts:12-101 | An unauthenticated caller is rejected. An existing record decides alone, with no request and no write. With no email, an unconfigured gateway or no customer for the email the answer is none with no write. A store miss that writes nothing answers none, and a failed write changes nothing. The only possible write is the caller's missing status record, and access agrees with its status. |
| Verification.SelfHealFromSubscription | functions/src/stripe/verify-subscription.ts:50-77 | With a customer that has a subscription, the first listed one (any status) is merged with the customer's id, access follows its status, and exactly two requests are made. |
| Verification.SelfHealTakesFirstSubscription | functions/src/stripe/verify-subscription.ts:44-77 | The search takes the first customer and its first subscription. |
| Verification.SelfHealLifetime | functions/src/stripe/verify-subscription.ts:81-95 | Without a subscription, the lifetime decision is given iff one of the first five sessions is a paid one-time payment. The first such session is backfilled; otherwise the answer is none with no write. |
| Verification.EvaluateSubscriptionRecord | functions/src/stripe/verify-subscription.ts:24-35 | A backfilled recurring record read back gives the backfill's access, status, tier and grace. |
| Verification.EvaluateLifetimeRecord | functions/src/stripe/verify-subscription.ts:94 | A lifetime record read back gives exactly the lifetime decision. |
| Verification.SelfHealConverges | functions/src/stripe/verify-subscription.ts:22-66 | After a backfill, a second call takes the cached path with no request and no write, and gives the same access, status, tier and grace. |
| SyncCheckout.ApplyOwnSession | functions/src/stripe/sync-checkout.ts:34-72 | For the caller's own session: an unpaid one-time session is refused; a paid one-time session merges the lifetime record and answers lifetime; a recurring one merges the retrieved subscription's record and answers its status, or internal; another mode answers unknown with no write. |
| SyncCheckout.SyncCheckoutSession | functions/src/stripe/sync-checkout.ts:12-78 | Authentication and then the session id are checked before any request. A session of another user is refused, with no write, whatever its payment state. Errors write nothing. An unconfigured gateway or a session the gateway does not know gives internal, and only the caller's own session can succeed. An unpaid one-time session is refused. A paid one-time session merges the lifetime record and answers lifetime. Another mode writes nothing and answers unknown. A recurring session answers the retrieved subscription's status, or internal when it cannot be retrieved. Only the caller's status record is ever written, and only for its own session that is not an unpaid one-time purchase. |
| SyncCheckout.UnpaidOnlyBlocksOneTime | functions/src/stripe/sync-checkout.ts:34-57 | An unpaid one-time session is refused with no write; an unpaid recurring one is synced. |
| SyncCheckout.SyncMatchesWebhookCheckout | functions/src/stripe/sync-checkout.ts:40-69 | The sync merges into the status record exactly the fields the webhook checkout branch merges into the webhook record. |
| SyncCheckout.SyncThenVerify | functions/src/stripe/sync-checkout.ts:44-57 | After a recurring sync, verification answers from the written record with no request. Access follows the synced status, with grace iff past_due. |
| SyncCheckout.SyncRecurringWrites | functions/src/stripe/sync-checkout.ts:40-57 | A successful recurring sync merges the retrieved subscription's record and returns its status. |
| AdminSync.Step | functions/src/stripe/admin-sync.ts:29-71 | A session without a user, one not complete, and one whose user has a record each add their SKIP line and write nothing. A write happens exactly for a fresh complete session with a record to write. The record is the retrieved subscription's record for a recurring session or the lifetime record for a payment, reported by the matching SYNCED line. It throws exactly when a recurring session's subscription cannot be retrieved. |
| AdminSync.Backfill | functions/src/stripe/admin-sync.ts:47-71 | For a fresh complete session: the recurring record of the retrieved subscription, or the lifetime record, is set under the user's status path with its SYNCED line; a failed retrieve throws with no write; another mode does nothing. |
| AdminSync.Run | functions/src/stripe/admin-sync.ts:28-72 | The loop keeps every document it started with. Each new document is the record backfilled from a completed listed session of that user. It adds at most one line per session, in order, and a completed run reports every session skipped for want of a user or of completion. |
| AdminSync.RunSplits | functions/src/stripe/admin-sync.ts:28-72 | Running over `s1 + s2` equals running over `s1` and then over `s2`. |
| AdminSync.EarlierWritesSurvive | functions/src/stripe/admin-sync.ts:41-45 | A record written earlier in a run is never rewritten later in that run. |
| AdminSync.AdminSyncSubscriptions | functions/src/stripe/admin-sync.ts:14-78 | A wrong key, and only a wrong key, gives 403 with nothing done. Only new records, each backfilled from a completed listed session of its user, are written. A throw, from an unobtainable client, a failed listing or a failed retrieve in the loop, gives 500 with no lines. 200 carries at most one line per listed session, including the SKIP line of every session without a user or not complete. |
| AdminSync.ExistingRecordsUntouched | functions/src/stripe/admin-sync.ts:41-45 | A status record that exists before the run is left as it was. |
| AdminSync.SilentSessions | functions/src/stripe/admin-sync.ts:49-71 | A recurring session without a subscription id, or an unknown mode, adds neither a write nor a line. |
| Cancellation.CancelFields | functions/src/stripe/cancel-subscription.ts:39-42 | The update sets exactly cancelAtPeriodEnd=true and updatedAt. |
| Cancellation.CancelSubscription | functions/src/stripe/cancel-subscription.ts:11-52 | An unauthenticated caller is rejected. A missing record or subscription id fails the precondition with no request. The one request names the stored id. Success requires the gateway and the write to succeed; with a stored id, an unconfigured gateway, a refused update or a failed write is internal. The reply is the gateway's view. Only the caller's record changes, and only its two fields. |
| Cancellation.GatewayAheadOfStore | functions/src/stripe/cancel-subscription.ts:33-51 | When the store write fails after the gateway update, the client sees internal and the record is unchanged, though the request was made. |
| Cancellation.CancelKeepsAccess | functions/src/stripe/cancel-subscription.ts:39-42 | After cancelling, the record evaluates to the same access, status, tier, grace and period end, with the cancel flag set. |
| Portal.CreatePortalSession | functions/src/stripe/portal.ts:11-47 | An unauthenticated caller is rejected, then a missing gateway client gives internal. A missing record or customer id fails the precondition. The one request names the stored customer and the fixed return address, and the url is returned; a failed create is internal. |
| Portal.PortalIgnoresStatusRecord | functions/src/stripe/portal.ts:21-32 | A user with only a status record is refused, whatever it holds. |
| Portal.WebhookCheckoutOpensPortal | functions/src/stripe/portal.ts:21-38 | After the webhook delivers a one-time checkout with a customer, the portal request names that customer. |
| Checkout.Config | functions/src/stripe/checkout.ts:38-68 | One line item with quantity 1, the fixed urls, and the caller's email and uid. A trial of 7 days exists iff the mode is subscription. The user id tags the subscription or the payment intent. |
| Checkout.CreateCheckoutSession | functions/src/stripe/checkout.ts:11-80 | Authentication, then the mode, then the price id are checked before any request. A valid request makes exactly one request with the config. The url is returned iff it succeeds; past validation every failure is internal. |
| Checkout.CheckoutTagsReachCaller | functions/src/stripe/checkout.ts:49-68 | A session or subscription carrying the requested tags is credited to the caller by the webhook. |
| Checkout.ForeignPriceRefused | functions/src/stripe/checkout.ts:28-33 | A price id without the `price_` prefix is refused before any request. |
| TodoistOAuth.StateDoc | functions/src/todoist/oauth-init.ts:24-28 | The state document holds exactly uid, createdAt=now and expiresAt=now+600000. |
| TodoistOAuth.OAuthInit | functions/src/todoist/oauth-init.ts:14-36 | An unauthenticated caller is rejected with no write. Otherwise the state document is written at the state's path, nothing else changes, and the url is the provider's authorize endpoint with client id, scope data:read and the state. |
| TodoistOAuth.TokenFields | functions/src/todoist/oauth-callback.ts:92-95 | The success write holds exactly the token and the connection time. |
| TodoistOAuth.AfterConsume | functions/src/todoist/oauth-callback.ts:45-97 | After consumption, success holds iff the state has not expired, the exchange returned a token and the state names a user. Only success writes. The exchange is made iff the state has not expired, with the secrets and the code. Each failure has its own redirect: a non-timestamp expiry a server error, an expired state `expired`, a refused exchange `token_exchange_failed`, an unreachable provider `network_error`, an answer without a token `no_token`, and a state without a user a server error. |
| TodoistOAuth.OAuthCallback | functions/src/todoist/oauth-callback.ts:16-98 | Checks run in order: error, missing params, unknown state. A found state is consumed whatever follows. Only the state is ever removed, and a failed callback writes nothing else. Once the state is consumed, an expired state, a refused exchange, an unreachable provider and an answer without a token each redirect with their own reason. Success merges the token into the state's user's document. |
| TodoistOAuth.StateIsSingleUse | functions/src/todoist/oauth-callback.ts:37-48 | Replaying a consumed state, with any code and any answer, is an invalid state with no change. |
| TodoistOAuth.InitThenCallback | functions/src/todoist/oauth-init.ts:19-28 | A callback within ten minutes of init, with a token issued, stores the token for the caller. Later, it is expired with no exchange. |
| TodoistImport.Simplify | functions/src/todoist/import-tasks.ts:55-60 | The projection keeps length and order and reduces each task to id and content. |
| TodoistImport.StoredToken | functions/src/todoist/import-tasks.ts:23-25 | A token exists iff the user document holds a truthy one. |
| TodoistImport.ImportTodoistTasks | functions/src/todoist/import-tasks.ts:13-60 | An unauthenticated caller is rejected. No token fails the precondition with no request. A 401 clears the token and gives unauthenticated. A network failure, another non-2xx status, or a 2xx body that is not a task list gives internal with no write. Success iff a 2xx reply whose body is a task list, with the projected list. Only a 401 writes. |
| TodoistImport.RejectedTokenDisconnects | functions/src/todoist/import-tasks.ts:36-45 | After a 401, the next import fails the precondition without contacting the provider. |
| TodoistImport.ConnectThenImport | functions/src/todoist/oauth-callback.ts:92-95 | After a successful callback, the user's import sends the issued token. |
| Feedback.Recent | functions/src/feedback.ts:15 | A timestamp is kept iff it is stored and within the window. |
| Feedback.IsRateLimited | functions/src/feedback.ts:12-20 | Limited iff at least five recent admissions. When limited the map is unchanged. Otherwise the address's list becomes the recent ones followed by now. |
| Feedback.LimiterStaysBounded | functions/src/feedback.ts:15-18 | No address ever holds more than five admissions. |
| Feedback.OtherAddressesUntouched | functions/src/feedback.ts:14-18 | A check leaves every other address's history alone. |
| Feedback.StepCount | functions/src/feedback.ts:15-19 | A check adds one recent admission exactly when it admits. |
| Feedback.BurstIsCapped | functions/src/feedback.ts:12-20 | From `k` recent admissions, `n` requests at one instant admit `min(n, 5 - k)`. |
| Feedback.RecentOfFresh | functions/src/feedback.ts:15-17 | A list of recent admissions extended by now filters to itself. |
| Feedback.RecentOfStale | functions/src/feedback.ts:15 | A list of admissions a full window old filters to nothing. |
| Feedback.WindowClears | functions/src/feedback.ts:15-16 | A full window after an address's last admission, it is admitted again. |
| Feedback.ClientAddress | functions/src/feedback.ts:35 | The address is `req.ip`, else the forwarded header, else unknown. |
| Feedback.SubmitFeedback | functions/src/feedback.ts:29-80 | A non-POST gives 405 without touching the limiter. The limiter runs before validation, so invalid bodies use quota. 429 and 400 send no row. A row is sent iff admitted and valid, with the trimmed message, empty-string defaults for page and user agent, and a 200 or 500 status. |
| Feedback.LengthBoundIsOnRawMessage | functions/src/feedback.ts:48-51 | Exactly 2000 characters pass and 2001 fail, counted before trimming. |
| Feedback.BlankMessageRefused | functions/src/feedback.ts:43-46 | A message of white space alone is refused. |
| UserStats.WeeklyMinutesAppend | functions/src/aggregateUserStats.ts:38-41 | The weekly total is additive over any split of the sessions. |
| UserStats.OutsideWindowIgnored | functions/src/aggregateUserStats.ts:34-35 | Sessions outside the inclusive week window add nothing. |
| UserStats.NoneInWindow | functions/src/aggregateUserStats.ts:34-41 | Sessions all outside the window total zero. |
| UserStats.Totals | functions/src/aggregateUserStats.ts:28-44 | One total per user, in listing order, each the user's weekly minutes. |
| UserStats.Insert | functions/src/aggregateUserStats.ts:49 | Inserting into a descending list keeps it descending and adds exactly the element. |
| UserStats.SortDescending | functions/src/aggregateUserStats.ts:49 | The sort gives a descending permutation of the totals. |
| UserStats.PercentileRounds | functions/src/aggregateUserStats.ts:59 | The percentile is the nearest whole number to 100·i/n, with halves rounding up, and lies in [0, 100]. |
| UserStats.PercentileMonotone | functions/src/aggregateUserStats.ts:59 | A later rank never has a smaller percentile. |
| UserStats.PercentileFirstIsZero | functions/src/aggregateUserStats.ts:59 | Rank 1 has percentile 0. |
| UserStats.RankRows | functions/src/aggregateUserStats.ts:57-72 | Row i has rank i+1, total n, the i-th percentile, and the i-th user's id and minutes. |
| UserStats.RankRowsShape | functions/src/aggregateUserStats.ts:57-72 | Ranks are exactly 1..n, increasing. Every row carries n. Percentiles lie in [0, 100] and do not decrease, while minutes do not increase. Rank 1 has percentile 0. |
| UserStats.RankingShape | functions/src/aggregateUserStats.ts:28-72 | The ranking of all users has one row per user, shaped as above. |
| UserStats.RowsComeFromUsers | functions/src/aggregateUserStats.ts:38-62 | Every row belongs to a listed user and carries that user's weekly total. |
| UserStats.CommitBatches | functions/src/aggregateUserStats.ts:53-89 | The batches concatenate to the rows in order. Each holds 1..450 rows, all but the last exactly 450. No rows means no batch. |
| UserStats.AggregateUserStats | functions/src/aggregateUserStats.ts:13-97 | The committed rows are the ranking, one per user, in batches of 1..450. Zero users means no commit. |
| ServiceWorker.Bypass | sw.js:24-30 | A request bypasses the cache iff its host contains one of the four video host names. |
| ServiceWorker.Match | sw.js:32-33 | The match is the entry of the first cache holding the url, and none iff no cache holds it. |
| ServiceWorker.HandleFetch | sw.js:20-35 | Video hosts go to the network. Others get the cached response if there is one, and the network otherwise. |
| ServiceWorker.Activate | sw.js:11-18 | Exactly the caches not named pomodoro-v34 are dropped. The current cache survives, in order. |
| ServiceWorker.AddAll | sw.js:6 | Every asset is stored under its fetched response, and other entries are kept. |
| ServiceWorker.Open | sw.js:6 | Opening yields the first current cache, creating it at the end if none exists. |
| ServiceWorker.Install | sw.js:4-9 | Install stores exactly the three assets in the current cache when all were fetched, and nothing when one failed. No other cache is touched. |
| ServiceWorker.InstalledShellServedOffline | sw.js:4-34 | After install and activate, every app-shell request is answered from the cache with the installed response. |

## Left out

- Host wiring is not modelled: `onRequest`/`onCall` registration, secrets, CORS, memory and timeouts, and logging. An uncaught throw inside an HTTP handler is modelled as a 500 response, or as `ServerError` in the Todoist callback. In a callable handler it is modelled as `internal`.
- Gateway SDK internals are not modelled. The signature check is an oracle: the parameter `verified` carries the event it constructs. Every retrieve or list call answers from a `Gateway` snapshot, where a missing key stands for a throw. Every create or update call takes its answer as an `Option` parameter.
- The Firestore client is not modelled beyond path-keyed documents. Batches, `Timestamp`, and what the library does with a three-segment `doc()` path are left out. Paths are literal strings.
- A store write can fail only in verification's backfill and in cancellation. Elsewhere writes are assumed to succeed, and the failure of a batch commit in the ranking job is not modelled.
- Network I/O is represented only by its outcome, passed in as a parameter: the Todoist token exchange and task listing, the spreadsheet append, and Cache Storage and `fetch` in the service worker.
- The clock and `crypto.randomUUID()` are parameters. The several `new Date()` readings inside one handler are modelled as a single instant.
- Concurrency is left out: the race between the ledger read and the ledger write, interleaved deliveries, and the per-process rate-limit map shared across requests. All steps are sequential.
- JavaScript number semantics are left out. Minutes are naturals. The percentile is computed exactly as `(200 i + n) div (2 n)`, which is `Math.round(100 i / n)` on exact rationals; floating-point rounding near halves is not modelled.
- Among users with equal minutes, the ranking keeps listing order (the model's insertion sort is stable, as `Array.prototype.sort` is). No property is stated about tie order.
- URL building is left out: `URLSearchParams` and `encodeURIComponent`. The authorize query is a record, and the error reason is passed through unencoded.
- Lengths are counted in characters, not UTF-16 code units, so the 2000-character bound differs for text outside the Basic Multilingual Plane.
- The Express query's array form (`?key=a&key=b`) is not modelled; query parameters are optional strings.
- A state document whose `uid` is missing or not a string is modelled as a throw after the exchange (`ServerError`). One whose `expiresAt` is not a timestamp is a throw before the exchange.
- The spreadsheet credentials and the sheet id are not modelled; only the append's success matters.
- `functions/src/index.ts` only re-exports handlers and has no logic.
- Paths are literal concatenations, so a user id containing '/' could name another user's record; `Store.UserPathIsNoRecordPath` states the separation for ids without '/', and the handlers' uids are taken to be such ids.
- Feedback.Recent: only membership and the length bound are stated, not that the filter keeps order and multiplicity, because the permutation form made the dependent proofs too costly. The exact list is fixed by its definition, and `RecentOfFresh` states it for the case the limiter needs.
- Webhooks.HandleWebhook: a bad signature and an unobtainable gateway client both answer 400 "Invalid signature". This matches the source, where `getStripe()` sits inside the same try. The environment's webhook secret value is not modelled beyond presence.
- AdminSync.AdminSyncSubscriptions: the response lines are datatypes rather than formatted strings. An unobtainable gateway client (`getStripe()` outside the try) is modelled as a 500. The gateway requests of this temporary endpoint are not recorded, and the run states no rule on which of several sessions of one user supplies the record beyond `EarlierWritesSurvive`.
- ServiceWorker: Cache Storage is a sequence of named caches and the model does not require the names to be distinct, since `Open` and `Match` take the first cache of a name. Asset paths are used as request keys as written, without resolving them against the page's origin.
- Webhooks.EffectOf: an `Unhandled` payload may carry the name of a handled type; `WellFormedData` excludes that, and the dispatch is stated for well-formed payloads by `TypeNameSelectsBranch`.

=== FILE: access.dfy ===
/** The access evaluator: the client-facing decision derived from a stored
    subscription record, with no gateway involvement. */
module Access {
  import opened Common
  import opened Store
  import opened StripeHelpers

  datatype Tier = Monthly | Yearly | Lifetime

  /** The decision returned to the client. `status` is `None` when the record
      has no status field (the response then omits it). */
  datatype Decision = Decision(
    hasAccess: bool,
    status: Option<Value>,
    tier: Option<Tier>,
    gracePeriod: bool,
    currentPeriodEnd: Value,
    cancelAtPeriodEnd: Value)

  /** The decision returned whenever nothing grants access. */
  const NoAccess: Decision := Decision(false, Some(Str("none")), None, false, Null, Bool(false))

  /** `PREMIUM_STATUSES.includes(record.status)` */
  predicate StatusIsPremium(status: Option<Value>)
  {
    status.Some? && status.value.Str? && IsPremium(status.value.s)
  }

  /** `getTier(record)`. Reading `priceId.includes` on a truthy value that is
      not a string throws, which is the `Err` outcome. */
  function GetTier(record: Doc): (r: Result<Option<Tier>>)
    ensures Field(record, "status") == Some(Str("lifetime")) ==> r == Ok(Some(Lifetime))
    ensures Field(record, "status") != Some(Str("lifetime")) ==>
      && (!FieldTruthy(record, "priceId") ==> r == Ok(None))
      && (FieldTruthy(record, "priceId") && record["priceId"].Str? ==>
            r == Ok(Some(if Contains(record["priceId"].s, "monthly") then Monthly else Yearly)))
      && (FieldTruthy(record, "priceId") && record["priceId"].Iso? ==> r == Ok(Some(Yearly)))
      && (FieldTruthy(record, "priceId") && !record["priceId"].Str? && !record["priceId"].Iso? ==> r.Err?)
  {
    if Field(record, "status") == Some(Str("lifetime")) then Ok(Some(Lifetime))
    else if !FieldTruthy(record, "priceId") then Ok(None)
    else match record["priceId"]
      case Str(p) => Ok(Some(if Contains(p, "monthly") then Monthly else Yearly))
      // an ISO timestamp is a string that never contains "monthly"
      case Iso(_) => Ok(Some(Yearly))
      case _ => Err(Internal)
  }

  /** `v || fallback` */
  function Or(v: Option<Value>, fallback: Value): (r: Value)
    ensures v.Some? && Truthy(v.value) ==> r == v.value
    ensures !(v.Some? && Truthy(v.value)) ==> r == fallback
  {
    if v.Some? && Truthy(v.value) then v.value else fallback
  }

  /** The decision derived from a stored record (the cached path of
      verification). */
  function Evaluate(record: Doc): (r: Result<Decision>)
    ensures r.Ok? <==> GetTier(record).Ok?
    ensures r.Ok? ==>
      && (r.value.hasAccess <==> StatusIsPremium(Field(record, "status")))
      && (r.value.gracePeriod <==> Field(record, "status") == Some(Str("past_due")))
      && r.value.status == Field(record, "status")
      && r.value.tier == GetTier(record).value
      && (FieldTruthy(record, "currentPeriodEnd") ==> r.value.currentPeriodEnd == record["currentPeriodEnd"])
      && (!FieldTruthy(record, "currentPeriodEnd") ==> r.value.currentPeriodEnd == Null)
      && (FieldTruthy(record, "cancelAtPeriodEnd") ==> r.value.cancelAtPeriodEnd == record["cancelAtPeriodEnd"])
      && (!FieldTruthy(record, "cancelAtPeriodEnd") ==> r.value.cancelAtPeriodEnd == Bool(false))
  {
    var status := Field(record, "status");
    match GetTier(record)
    case Err(e) => Err(e)
    case Ok(tier) =>
      Ok(Decision(
        StatusIsPremium(status),
        status,
        tier,
        status == Some(Str("past_due")),
        Or(Field(record, "currentPeriodEnd"), Null),
        Or(Field(record, "cancelAtPeriodEnd"), Bool(false))))
  }

  /** A lifetime tier always comes with access, and a grace period only ever
      accompanies access: both follow from how the status is read. */
  lemma LifetimeAndGraceImplyAccess(record: Doc)
    requires Evaluate(record).Ok?
    ensures Evaluate(record).value.tier == Some(Lifetime) ==> Evaluate(record).value.hasAccess
    ensures Evaluate(record).value.gracePeriod ==> Evaluate(record).value.hasAccess
  {
    var tier := GetTier(record);
    if Field(record, "status") != Some(Str("lifetime")) && FieldTruthy(record, "priceId") && record["priceId"].Str? {
      assert tier.value != Some(Lifetime);
    }
    assert IsPremium("lifetime") && IsPremium("past_due");
  }

  /** Access derivation is total over the six lifecycle states: a record whose
      status is one of them always evaluates, and grants access exactly for
      active, trialing, past_due and lifetime. */
  lemma AccessTotality(record: Doc, status: string)
    requires status in {"active", "trialing", "past_due", "canceled", "lifetime", "none"}
    requires Field(record, "status") == Some(Str(status))
    requires "priceId" !in record || record["priceId"].Str? || record["priceId"].Null?
    ensures Evaluate(record).Ok?
    ensures Evaluate(record).value.hasAccess <==> status in {"active", "trialing", "past_due", "lifetime"}
  {
    PremiumStatusesExact();
  }
}

=== FILE: admin_sync.dfy ===
/** The key-guarded admin backfill: walks the gateway's most recent checkout
    sessions in order and, for each completed session of a user that has no
    status record yet, writes one from scratch. */
module AdminSync {
  import opened Common
  import opened Store
  import opened Billing

  const AdminKey: string := "pomodoro-admin-sync-2026"

  /** `sessions.list({limit: 100})` */
  const ListLimit: nat := 100

  /** One entry of the `synced` list in the response. */
  datatype Line =
    | SkipNoReference(sessionId: string)
    | SkipStatus(sessionId: string, status: string)
    | SkipExisting(uid: string)
    | SyncedSubscription(uid: string, status: string, email: Option<string>)
    | SyncedLifetime(uid: string, email: Option<string>)

  /** The loop state: the store, the lines so far, and whether a gateway call threw. */
  datatype Progress = Progress(db: Db, lines: seq<Line>, failed: bool)

  datatype AdminOutcome = AdminOutcome(db: Db, status: int, lines: seq<Line>)

  /** `doc` is the record the loop writes for the completed session `s`: the
      record of its retrieved subscription for a recurring session with a
      subscription id, the lifetime record for a one-time payment. */
  predicate BackfilledFrom(gw: Gateway, s: CheckoutSession, now: int, doc: Doc)
  {
    && s.status == "complete"
    && (if s.mode == "subscription" && Present(s.subscription) then
          && Retrieve(gw, s.subscription).Some?
          && doc == SubscriptionRecord(s.subscription.value, Retrieve(gw, s.subscription).value, OrNull(s.customer), now)
        else
          s.mode == "payment" && doc == LifetimeRecord(OrNull(s.paymentIntent), OrNull(s.customer), now))
  }

  /** A document `after` holds is either as it was in `before` or a fresh
      status record of the user of one of `sessions`, backfilled from that
      completed session. */
  predicate OnlyNewRecords(before: Db, after: Db, gw: Gateway, sessions: seq<CheckoutSession>, now: int)
  {
    && (forall p :: p in before ==> p in after && after[p] == before[p])
    && (forall p :: p in after && p !in before ==>
          exists i :: 0 <= i < |sessions| && Present(sessions[i].clientReferenceId)
                      && p == StatusPath(sessions[i].clientReferenceId.value)
                      && BackfilledFrom(gw, sessions[i], now, after[p]))
  }

  /** The session would be backfilled: it names a user, is complete, and the
      user has no status record yet. */
  predicate Fresh(db: Db, s: CheckoutSession)
  {
    Present(s.clientReferenceId) && s.status == "complete" && StatusPath(s.clientReferenceId.value) !in db
  }

  /** A session without a user, or not complete, has its SKIP line in `lines`. */
  predicate SkipsReported(s: CheckoutSession, lines: seq<Line>)
  {
    && (!Present(s.clientReferenceId) ==> SkipNoReference(s.id) in lines)
    && (Present(s.clientReferenceId) && s.status != "complete" ==> SkipStatus(s.id, s.status) in lines)
  }

  /** One iteration of the loop body on session `s`. */
  function Step(p: Progress, gw: Gateway, s: CheckoutSession, now: int): (r: Progress)
    requires !p.failed
    ensures OnlyNewRecords(p.db, r.db, gw, [s], now)
    ensures |p.lines| <= |r.lines| <= |p.lines| + 1 && r.lines[..|p.lines|] == p.lines
    // the three SKIP lines, each with no write
    ensures !Present(s.clientReferenceId) ==> r == p.(lines := p.lines + [SkipNoReference(s.id)])
    ensures Present(s.clientReferenceId) && s.status != "complete" ==>
      r == p.(lines := p.lines + [SkipStatus(s.id, s.status)])
    ensures Present(s.clientReferenceId) && s.status == "complete" && StatusPath(s.clientReferenceId.value) in p.db ==>
      r == p.(lines := p.lines + [SkipExisting(s.clientReferenceId.value)])
    // a write happens exactly for a fresh session that has a record to write
    ensures r.db != p.db <==> Fresh(p.db, s) && exists doc :: BackfilledFrom(gw, s, now, doc)
    ensures r.failed <==>
      Fresh(p.db, s) && s.mode == "subscription" && Present(s.subscription) && Retrieve(gw, s.subscription).None?
    ensures r.failed ==> r.db == p.db && r.lines == p.lines
    // a write is the session's backfilled record under its user, reported by a SYNCED line
    ensures r.db != p.db ==>
      var uid := s.clientReferenceId.value;
      && r.db == p.db[StatusPath(uid) := r.db[StatusPath(uid)]]
      && BackfilledFrom(gw, s, now, r.db[StatusPath(uid)])
      && r.lines == p.lines + [if s.mode == "payment" then SyncedLifetime(uid, s.customerEmail)
                               else SyncedSubscription(uid, r.db[StatusPath(uid)]["status"].s, s.customerEmail)]
  {
    if !Present(s.clientReferenceId) then p.(lines := p.lines + [SkipNoReference(s.id)])
    else if s.status != "complete" then p.(lines := p.lines + [SkipStatus(s.id, s.status)])
    else if StatusPath(s.clientReferenceId.value) in p.db then p.(lines := p.lines + [SkipExisting(s.clientReferenceId.value)])
    else Backfill(p, gw, s, now)
  }

  /** The loop body's write for a fresh session: the record for its mode, or a
      throw when its subscription cannot be retrieved. */
  function Backfill(p: Progress, gw: Gateway, s: CheckoutSession, now: int): (r: Progress)
    requires !p.failed && Fresh(p.db, s)
    ensures OnlyNewRecords(p.db, r.db, gw, [s], now)
    ensures r.db != p.db <==> exists doc :: BackfilledFrom(gw, s, now, doc)
    ensures r.failed <==> s.mode == "subscription" && Present(s.subscription) && Retrieve(gw, s.subscription).None?
    ensures r.db == p.db ==> r.lines == p.lines
    ensures r.db != p.db ==>
      var uid := s.clientReferenceId.value;
      && r.db == p.db[StatusPath(uid) := r.db[StatusPath(uid)]]
      && BackfilledFrom(gw, s, now, r.db[StatusPath(uid)])
      && r.lines == p.lines + [if s.mode == "payment" then SyncedLifetime(uid, s.customerEmail)
                               else SyncedSubscription(uid, r.db[StatusPath(uid)]["status"].s, s.customerEmail)]
  {
    var uid := s.clientReferenceId.value;
    if s.mode == "subscription" && Present(s.subscription) then
      match Retrieve(gw, s.subscription)
      case None => p.(failed := true)
      case Some(sub) =>
        var record := SubscriptionRecord(s.subscription.value, sub, OrNull(s.customer), now);
        assert BackfilledFrom(gw, s, now, record);
        assert OnlyNewRecords(p.db, Overwrite(p.db, StatusPath(uid), record), gw, [s], now) by {
          assert StatusPath(uid) == StatusPath([s][0].clientReferenceId.value);
        }
        Progress(Overwrite(p.db, StatusPath(uid), record),
                 p.lines + [SyncedSubscription(uid, sub.status, s.customerEmail)], false)
    else if s.mode == "payment" then
      var record := LifetimeRecord(OrNull(s.paymentIntent), OrNull(s.customer), now);
      assert BackfilledFrom(gw, s, now, record);
      assert OnlyNewRecords(p.db, Overwrite(p.db, StatusPath(uid), record), gw, [s], now) by {
        assert StatusPath(uid) == StatusPath([s][0].clientReferenceId.value);
      }
      Progress(Overwrite(p.db, StatusPath(uid), record), p.lines + [SyncedLifetime(uid, s.customerEmail)], false)
    else p
  }

  /** The loop over `sessions`, from progress `p`; it stops at the first throw. */
  function Run(p: Progress, gw: Gateway, sessions: seq<CheckoutSession>, now: int): (r: Progress)
    ensures OnlyNewRecords(p.db, r.db, gw, sessions, now)
    ensures |p.lines| <= |r.lines| <= |p.lines| + |sessions| && r.lines[..|p.lines|] == p.lines
    ensures p.failed ==> r == p
    // a completed run reports every session it skipped for want of a user or of completion
    ensures !r.failed ==> forall i :: 0 <= i < |sessions| ==> SkipsReported(sessions[i], r.lines)
    decreases |sessions|
  {
    if |sessions| == 0 || p.failed then p
    else
      var next := Step(p, gw, sessions[0], now);
      var r := Run(next, gw, sessions[1..], now);
      assert OnlyNewRecords(p.db, r.db, gw, sessions, now) by {
        forall q | q in r.db && q !in p.db
          ensures exists i :: 0 <= i < |sessions| && Present(sessions[i].clientReferenceId)
                              && q == StatusPath(sessions[i].clientReferenceId.value)
                              && BackfilledFrom(gw, sessions[i], now, r.db[q])
        {
          if q in next.db {
            assert r.db[q] == next.db[q];
            assert Present(sessions[0].clientReferenceId) && q == StatusPath(sessions[0].clientReferenceId.value)
                   && BackfilledFrom(gw, sessions[0], now, r.db[q]);
          } else {
            var i :| 0 <= i < |sessions[1..]| && Present(sessions[1..][i].clientReferenceId)
                     && q == StatusPath(sessions[1..][i].clientReferenceId.value)
                     && BackfilledFrom(gw, sessions[1..][i], now, r.db[q]);
            assert sessions[1..][i] == sessions[i + 1];
          }
        }
      }
      assert !r.failed ==> forall i :: 0 <= i < |sessions| ==> SkipsReported(sessions[i], r.lines) by {
        if !r.failed {
          assert r.lines[..|next.lines|] == next.lines;
          forall i | 0 <= i < |sessions|
            ensures SkipsReported(sessions[i], r.lines)
          {
            if i == 0 {
              if !Present(sessions[0].clientReferenceId) || sessions[0].status != "complete" {
                assert |next.lines| == |p.lines| + 1;
                assert r.lines[|p.lines|] == next.lines[|p.lines|];
              }
            } else {
              assert sessions[1..][i - 1] == sessions[i];
            }
          }
        }
      }
      r
  }

  /** Running over `s1 + s2` is running over `s1` and then over `s2`. */
  lemma {:induction false} RunSplits(p: Progress, gw: Gateway, s1: seq<CheckoutSession>, s2: seq<CheckoutSession>, now: int)
    ensures Run(p, gw, s1 + s2, now) == Run(Run(p, gw, s1, now), gw, s2, now)
    decreases |s1|
  {
    if |s1| == 0 {
      assert s1 + s2 == s2;
    } else if !p.failed {
      assert (s1 + s2)[1..] == s1[1..] + s2;
      RunSplits(Step(p, gw, s1[0], now), gw, s1[1..], s2, now);
    }
  }

  /** A status record written earlier in a run is never rewritten later in the
      same run, in particular not by a later session of the same user. */
  lemma EarlierWritesSurvive(p: Progress, gw: Gateway, s1: seq<CheckoutSession>, s2: seq<CheckoutSession>,
                             now: int, path: string)
    ensures path in Run(p, gw, s1, now).db ==>
              path in Run(p, gw, s1 + s2, now).db && Run(p, gw, s1 + s2, now).db[path] == Run(p, gw, s1, now).db[path]
  {
    RunSplits(p, gw, s1, s2, now);
  }

  /** `adminSyncSubscriptions`. `key` is the `key` query parameter. */
  function AdminSyncSubscriptions(db: Db, gw: Gateway, key: Option<string>, now: int): (r: AdminOutcome)
    ensures key != Some(AdminKey) ==> r == AdminOutcome(db, 403, [])
    ensures r.status == 403 <==> key != Some(AdminKey)
    // a throw, before or during the loop, answers 500
    ensures key == Some(AdminKey) && (!gw.configured || gw.recentSessions.None?) ==> r == AdminOutcome(db, 500, [])
    ensures key == Some(AdminKey) && gw.configured && gw.recentSessions.Some? ==>
      (r.status == 500 <==> Run(Progress(db, [], false), gw, Take(gw.recentSessions.value, ListLimit), now).failed)
    ensures r.status in {200, 403, 500}
    ensures r.status == 200 ==> gw.recentSessions.Some? && |r.lines| <= |Take(gw.recentSessions.value, ListLimit)|
    ensures r.status == 200 || r.status == 500 ==>
      gw.recentSessions.Some? ==> OnlyNewRecords(db, r.db, gw, Take(gw.recentSessions.value, ListLimit), now)
    ensures r.status != 200 ==> r.lines == []
    // every listed session without a user or not complete is reported as skipped
    ensures r.status == 200 ==>
      var taken := Take(gw.recentSessions.value, ListLimit);
      forall i :: 0 <= i < |taken| ==> SkipsReported(taken[i], r.lines)
    ensures gw.recentSessions.None? ==> r.db == db
  {
    if key != Some(AdminKey) then AdminOutcome(db, 403, [])
    else if !gw.configured || gw.recentSessions.None? then AdminOutcome(db, 500, [])
    else
      var r := Run(Progress(db, [], false), gw, Take(gw.recentSessions.value, ListLimit), now);
      if r.failed then AdminOutcome(r.db, 500, []) else AdminOutcome(r.db, 200, r.lines)
  }

  /** A user whose status record exists before the run keeps it untouched,
      whatever the sessions say. */
  lemma ExistingRecordsUntouched(db: Db, gw: Gateway, key: Option<string>, now: int, uid: string)
    requires StatusPath(uid) in db
    ensures var r := AdminSyncSubscriptions(db, gw, key, now);
            StatusPath(uid) in r.db && r.db[StatusPath(uid)] == db[StatusPath(uid)]
  {
  }

  /** A recurring session without a subscription id, or a session of an unknown
      mode, adds neither a write nor a result line. */
  lemma SilentSessions(p: Progress, gw: Gateway, s: CheckoutSession, now: int)
    requires !p.failed
    requires Present(s.clientReferenceId) && s.status == "complete" && StatusPath(s.clientReferenceId.value) !in p.db
    requires (s.mode == "subscription" && !Present(s.subscription)) || s.mode !in {"subscription", "payment"}
    ensures Step(p, gw, s, now) == p
  {
  }
}

=== FILE: billing.dfy ===
/** The payment gateway's objects as the handlers see them, the gateway's
    answers to read calls, and the record fields every subscription-writing
    path derives from them. */
module Billing {
  import opened Common
  import opened Store

  /** A subscription object: `items.data[i].price.id` is `priceIds[i]`,
      `metadata.firebaseUid` is `firebaseUid`. */
  datatype Subscription = Subscription(
    id: string,
    status: string,
    priceIds: seq<string>,
    currentPeriodEnd: int,
    cancelAtPeriodEnd: bool,
    firebaseUid: Option<string>)

  /** A checkout session object. `status` is the session status (`complete`,
      `open`, ...), `paymentStatus` is `paid`, `unpaid`, ... */
  datatype CheckoutSession = CheckoutSession(
    id: string,
    clientReferenceId: Option<string>,
    mode: string,
    status: string,
    paymentStatus: string,
    subscription: Option<string>,
    customer: Option<string>,
    paymentIntent: Option<string>,
    customerEmail: Option<string>)

  datatype Customer = Customer(id: string)

  datatype Invoice = Invoice(subscription: Option<string>)

  /** What the gateway answers to read calls. A key that is absent from a map
      stands for a call that throws (an unknown id, a network failure).
      `configured` is whether the gateway client can be obtained at all
      (see `StripeHelpers.GetStripe`). */
  datatype Gateway = Gateway(
    configured: bool,
    subscriptions: map<string, Subscription>,
    sessions: map<string, CheckoutSession>,
    customersByEmail: map<string, seq<Customer>>,
    subscriptionsByCustomer: map<string, seq<Subscription>>,
    sessionsByCustomer: map<string, seq<CheckoutSession>>,
    recentSessions: Option<seq<CheckoutSession>>)

  /** One outbound request to the gateway, recorded so that contracts can say
      which requests a handler made. */
  datatype Call =
    | RetrieveSubscription(subscriptionId: string)
    | RetrieveSession(sessionId: string)
    | ListCustomers(email: string)
    | ListSubscriptions(customerId: string)
    | ListSessions(customerId: string)
    | ListRecentSessions
    | UpdateSubscription(target: Value)
    | CreatePortalSession(customer: Value, returnUrl: string)
    | CreateCheckout(config: SessionConfig)

  /** The mode-specific part of a checkout session request: a recurring
      purchase carries a trial and tags the subscription with the user id, a
      one-time purchase tags the payment intent. */
  datatype ModeData =
    | SubscriptionData(trialPeriodDays: nat, firebaseUid: string)
    | PaymentIntentData(firebaseUid: string)

  /** The checkout session configuration sent to the gateway; one line item. */
  datatype SessionConfig = SessionConfig(
    mode: string,
    price: string,
    quantity: nat,
    successUrl: string,
    cancelUrl: string,
    customerEmail: Option<string>,
    clientReferenceId: string,
    modeData: ModeData)

  /** `subscriptions.retrieve(id)`; `None` when it throws. A missing id
      (`null as string`) makes the call throw too. */
  function Retrieve(gw: Gateway, id: Option<string>): (r: Option<Subscription>)
    ensures r.Some? <==> id.Some? && id.value in gw.subscriptions
  {
    if id.Some? && id.value in gw.subscriptions then Some(gw.subscriptions[id.value]) else None
  }

  /** `items.data[0]?.price.id || null` */
  function PriceIdOf(sub: Subscription): (v: Value)
    ensures v != Null <==> |sub.priceIds| > 0 && sub.priceIds[0] != ""
    ensures v != Null ==> v == Str(sub.priceIds[0])
  {
    if |sub.priceIds| > 0 && sub.priceIds[0] != "" then Str(sub.priceIds[0]) else Null
  }

  const SubscriptionKeys: set<string> :=
    {"subscriptionId", "status", "priceId", "currentPeriodEnd", "cancelAtPeriodEnd", "customerId", "updatedAt"}

  const LifetimeKeys: set<string> := {"status", "paymentIntentId", "customerId", "updatedAt"}

  /** The full field set written for a recurring subscription, shared by the
      webhook checkout branch, the pull sync, the self-healing verification and
      the admin backfill. */
  function SubscriptionRecord(subscriptionId: string, sub: Subscription, customer: Value, now: int): (d: Doc)
    ensures d.Keys == SubscriptionKeys
  {
    map[
      "subscriptionId" := Str(subscriptionId),
      "status" := Str(sub.status),
      "priceId" := PriceIdOf(sub),
      "currentPeriodEnd" := Int(sub.currentPeriodEnd),
      "cancelAtPeriodEnd" := Bool(sub.cancelAtPeriodEnd),
      "customerId" := customer,
      "updatedAt" := Iso(now)]
  }

  /** The field set written for a one-time (lifetime) purchase. */
  function LifetimeRecord(paymentIntent: Value, customer: Value, now: int): (d: Doc)
    ensures d.Keys == LifetimeKeys && d["status"] == Str("lifetime")
  {
    map[
      "status" := Str("lifetime"),
      "paymentIntentId" := paymentIntent,
      "customerId" := customer,
      "updatedAt" := Iso(now)]
  }
}

/** The lazily constructed, process-wide client handles and the premium-status
    list. */
module StripeHelpers {
  import opened Common

  /** `PREMIUM_STATUSES` */
  const PremiumStatuses: seq<string> := ["active", "trialing", "past_due", "lifetime"]

  /** `PREMIUM_STATUSES.includes(status)` */
  predicate IsPremium(status: string)
  {
    status in PremiumStatuses
  }

  /** The premium statuses are exactly these four, and of the six lifecycle
      states a subscription record can be in, `canceled` and `none` are the
      ones that grant no access. */
  lemma PremiumStatusesExact()
    ensures forall s :: IsPremium(s) <==> s in {"active", "trialing", "past_due", "lifetime"}
    ensures !IsPremium("canceled") && !IsPremium("none")
  {
  }

  const ApiVersion: string := "2025-02-24.acacia"

  datatype StripeClient = StripeClient(secretKey: string, apiVersion: string)

  /** A store client; `instance` distinguishes one construction from another. */
  datatype StoreClient = StoreClient(instance: nat)

  /** The module-level `stripeClient` and `firestoreDb` variables. */
  datatype Handles = Handles(stripe: Option<StripeClient>, db: Option<StoreClient>)

  /** `getStripe()` given the `STRIPE_SECRET_KEY` environment variable; `None`
      when it throws. Returns the updated handles and the client. */
  function GetStripe(h: Handles, secretKey: Option<string>): (r: Option<(Handles, StripeClient)>)
    ensures h.stripe.Some? ==> r == Some((h, h.stripe.value))
    ensures h.stripe.None? ==> (r.Some? <==> Present(secretKey))
    ensures r.Some? ==> r.value.0 == h.(stripe := Some(r.value.1))
    ensures r.Some? && h.stripe.None? ==> r.value.1 == StripeClient(secretKey.value, ApiVersion)
  {
    if h.stripe.Some? then Some((h, h.stripe.value))
    else if !Present(secretKey) then None
    else
      var client := StripeClient(secretKey.value, ApiVersion);
      Some((h.(stripe := Some(client)), client))
  }

  /** `getDb()`: `made` is what `getFirestore()` would return if called. */
  function GetDb(h: Handles, made: StoreClient): (r: (Handles, StoreClient))
    ensures h.db.Some? ==> r == (h, h.db.value)
    ensures h.db.None? ==> r == (h.(db := Some(made)), made)
  {
    if h.db.Some? then (h, h.db.value) else (h.(db := Some(made)), made)
  }

  /** Once a gateway client exists, every later `getStripe()` returns that same
      client and leaves the handles alone, whatever the environment says then. */
  lemma GetStripeConstructsOnce(h: Handles, key1: Option<string>, key2: Option<string>)
    requires GetStripe(h, key1).Some?
    ensures GetStripe(GetStripe(h, key1).value.0, key2) == GetStripe(h, key1)
  {
  }

  /** Once a store client exists, every later `getDb()` returns it unchanged. */
  lemma GetDbConstructsOnce(h: Handles, made1: StoreClient, made2: StoreClient)
    ensures GetDb(GetDb(h, made1).0, made2) == GetDb(h, made1)
  {
  }
}

=== FILE: cancel_subscription.dfy ===
/** Cancellation at period end: the gateway subscription is flagged to end with
    the current billing period, and the status record is flagged likewise, so
    access continues until the period ends. */
module Cancellation {
  import opened Common
  import opened Store
  import opened Billing
  import opened Access

  /** The value returned to the client, taken from the gateway's answer. */
  datatype CancelReply = CancelReply(cancelAtPeriodEnd: bool, currentPeriodEnd: int)

  datatype CancelOutcome = CancelOutcome(db: Db, result: Result<CancelReply>, calls: seq<Call>)

  /** The two fields the cancellation writes into the status record. */
  function CancelFields(now: int): (d: Doc)
    ensures d.Keys == {"cancelAtPeriodEnd", "updatedAt"} && d["cancelAtPeriodEnd"] == Bool(true)
  {
    map["cancelAtPeriodEnd" := Bool(true), "updatedAt" := Iso(now)]
  }

  /** `cancelSubscription`. `answer` is the gateway's reply to the update request
      (`None` when it throws) and `writable` whether the store accepts the write. */
  function CancelSubscription(db: Db, gw: Gateway, caller: Option<Caller>, answer: Option<Subscription>,
                              writable: bool, now: int): (r: CancelOutcome)
    ensures caller.None? ==> r == CancelOutcome(db, Err(Unauthenticated), [])
    // no record, or a record without a subscription id: refused before any gateway request
    ensures caller.Some? && (StatusPath(caller.value.uid) !in db
                             || !FieldTruthy(db[StatusPath(caller.value.uid)], "subscriptionId")) ==>
      r == CancelOutcome(db, Err(FailedPrecondition), [])
    // the one gateway request names the stored subscription id
    ensures r.calls != [] ==>
      && caller.Some? && gw.configured && StatusPath(caller.value.uid) in db
      && r.calls == [UpdateSubscription(db[StatusPath(caller.value.uid)]["subscriptionId"])]
    ensures r.result.Ok? <==>
      && caller.Some? && StatusPath(caller.value.uid) in db
      && FieldTruthy(db[StatusPath(caller.value.uid)], "subscriptionId")
      && gw.configured && answer.Some? && writable
    ensures r.result.Err? ==> r.db == db && r.result.code in {Unauthenticated, FailedPrecondition, Internal}
    // with a stored subscription id, an unconfigured gateway, a refused update and a failed write are internal
    ensures caller.Some? && StatusPath(caller.value.uid) in db
            && FieldTruthy(db[StatusPath(caller.value.uid)], "subscriptionId") && r.result.Err? ==>
      r.result.code == Internal
    // the reply reports the gateway's view, not the store's
    ensures r.result.Ok? ==>
      r.result.value == CancelReply(answer.value.cancelAtPeriodEnd, answer.value.currentPeriodEnd)
    // the write touches only the caller's record, and only its two fields
    ensures r.result.Ok? ==>
      var path := StatusPath(caller.value.uid);
      && r.db.Keys == db.Keys
      && (forall p :: p in db && p != path ==> r.db[p] == db[p])
      && r.db[path].Keys == db[path].Keys + {"cancelAtPeriodEnd", "updatedAt"}
      && r.db[path]["cancelAtPeriodEnd"] == Bool(true) && r.db[path]["updatedAt"] == Iso(now)
      && (forall k :: k in db[path] && k !in {"cancelAtPeriodEnd", "updatedAt"} ==> r.db[path][k] == db[path][k])
  {
    if caller.None? then CancelOutcome(db, Err(Unauthenticated), [])
    else
      var path := StatusPath(caller.value.uid);
      if path !in db || !FieldTruthy(db[path], "subscriptionId") then CancelOutcome(db, Err(FailedPrecondition), [])
      else if !gw.configured then CancelOutcome(db, Err(Internal), [])
      else
        var calls := [UpdateSubscription(db[path]["subscriptionId"])];
        if answer.None? || !writable then CancelOutcome(db, Err(Internal), calls)
        else CancelOutcome(Update(db, path, CancelFields(now)).value, Ok(CancelReply(answer.value.cancelAtPeriodEnd, answer.value.currentPeriodEnd)), calls)
  }

  /** When the store write fails after the gateway accepted the update, the
      gateway subscription is already set to cancel while the record is not:
      the client sees an error and the record stays as it was. */
  lemma GatewayAheadOfStore(db: Db, gw: Gateway, caller: Caller, sub: Subscription, now: int)
    requires StatusPath(caller.uid) in db && FieldTruthy(db[StatusPath(caller.uid)], "subscriptionId")
    requires gw.configured
    ensures var r := CancelSubscription(db, gw, Some(caller), Some(sub), false, now);
            && r.result == Err(Internal) && r.db == db
            && r.calls == [UpdateSubscription(db[StatusPath(caller.uid)]["subscriptionId"])]
  {
  }

  /** Cancelling at period end does not take access away: the record evaluates
      to the same access, status, tier, grace period and period end as before,
      now with the cancellation flag set. */
  lemma CancelKeepsAccess(db: Db, gw: Gateway, caller: Caller, sub: Subscription, now: int)
    requires StatusPath(caller.uid) in db && Evaluate(db[StatusPath(caller.uid)]).Ok?
    requires CancelSubscription(db, gw, Some(caller), Some(sub), true, now).result.Ok?
    ensures var before := Evaluate(db[StatusPath(caller.uid)]).value;
            var after := Evaluate(CancelSubscription(db, gw, Some(caller), Some(sub), true, now).db[StatusPath(caller.uid)]);
            && after.Ok?
            && after.value == before.(cancelAtPeriodEnd := Bool(true))
  {
    var path := StatusPath(caller.uid);
    var prior := db[path];
    var cancelled := CancelSubscription(db, gw, Some(caller), Some(sub), true, now).db[path];
    assert Field(cancelled, "status") == Field(prior, "status");
    assert Field(cancelled, "priceId") == Field(prior, "priceId");
    assert Field(cancelled, "currentPeriodEnd") == Field(prior, "currentPeriodEnd");
    assert GetTier(cancelled) == GetTier(prior);
  }
}

=== FILE: checkout.dfy ===
/** The checkout-session handler: validates the requested purchase and sends
    the gateway a checkout session configured for the caller. */
module Checkout {
  import opened Common
  import opened Store
  import opened Billing
  import Webhooks

  const SuccessUrl: string := "https://pomodorotimer.vip/?checkout=success&session_id={CHECKOUT_SESSION_ID}"
  const CancelUrl: string := "https://pomodorotimer.vip/?checkout=canceled"
  const TrialPeriodDays: nat := 7
  const PricePrefix: string := "price_"

  /** The checkout url returned (or the error thrown) and the gateway requests made. */
  datatype CheckoutOutcome = CheckoutOutcome(result: Result<string>, calls: seq<Call>)

  /** `mode` is exactly one of the two purchase modes. */
  predicate ValidMode(mode: Option<Value>)
  {
    mode == Some(Str("subscription")) || mode == Some(Str("payment"))
  }

  /** `priceId` is a non-empty string starting with `price_`. */
  predicate ValidPriceId(priceId: Option<Value>)
  {
    priceId.Some? && priceId.value.Str? && priceId.value.s != "" && StartsWith(priceId.value.s, PricePrefix)
  }

  /** The session configuration for a validated request. */
  function Config(caller: Caller, price: string, mode: string): (c: SessionConfig)
    requires mode in {"subscription", "payment"}
    ensures c.mode == mode && c.price == price && c.quantity == 1
    ensures c.successUrl == SuccessUrl && c.cancelUrl == CancelUrl
    ensures c.customerEmail == caller.email && c.clientReferenceId == caller.uid
    ensures mode == "subscription" <==> c.modeData.SubscriptionData?
    ensures c.modeData.SubscriptionData? ==> c.modeData.trialPeriodDays == TrialPeriodDays
    ensures c.modeData.firebaseUid == caller.uid
  {
    SessionConfig(mode, price, 1, SuccessUrl, CancelUrl, caller.email, caller.uid,
                  if mode == "subscription" then SubscriptionData(TrialPeriodDays, caller.uid)
                  else PaymentIntentData(caller.uid))
  }

  /** `createCheckoutSession`. `priceId` and `mode` are the request's fields, of
      any JSON type or absent; `answer` is the created session's url, `None` when
      the request throws. */
  function CreateCheckoutSession(gw: Gateway, caller: Option<Caller>, priceId: Option<Value>, mode: Option<Value>,
                                 answer: Option<string>): (r: CheckoutOutcome)
    ensures caller.None? ==> r == CheckoutOutcome(Err(Unauthenticated), [])
    // the mode is checked before the price
    ensures caller.Some? && !ValidMode(mode) ==> r == CheckoutOutcome(Err(InvalidArgument), [])
    ensures caller.Some? && ValidMode(mode) && !ValidPriceId(priceId) ==> r == CheckoutOutcome(Err(InvalidArgument), [])
    // every session requested is for a validated purchase by the caller, tagged with its id
    ensures r.calls != [] ==>
      && caller.Some? && ValidMode(mode) && ValidPriceId(priceId) && gw.configured
      && |r.calls| == 1 && r.calls[0].CreateCheckout?
      && r.calls[0].config == Config(caller.value, priceId.value.s, mode.value.s)
    ensures caller.Some? && ValidMode(mode) && ValidPriceId(priceId) && gw.configured ==> r.calls != []
    ensures r.result.Ok? <==> caller.Some? && ValidMode(mode) && ValidPriceId(priceId) && gw.configured && answer.Some?
    ensures r.result.Ok? ==> r.result.value == answer.value
    ensures r.result.Err? ==> r.result.code in {Unauthenticated, InvalidArgument, Internal}
    // past validation, an unconfigured gateway and a failed create are both internal
    ensures caller.Some? && ValidMode(mode) && ValidPriceId(priceId) && r.result.Err? ==> r.result.code == Internal
  {
    if caller.None? then CheckoutOutcome(Err(Unauthenticated), [])
    else if !ValidMode(mode) then CheckoutOutcome(Err(InvalidArgument), [])
    else if !ValidPriceId(priceId) then CheckoutOutcome(Err(InvalidArgument), [])
    else if !gw.configured then CheckoutOutcome(Err(Internal), [])
    else
      var calls := [CreateCheckout(Config(caller.value, priceId.value.s, mode.value.s))];
      match answer
      case None => CheckoutOutcome(Err(Internal), calls)
      case Some(url) => CheckoutOutcome(Ok(url), calls)
  }

  /** The tags on a requested session route the gateway's later events to the
      caller: a completed one-time session carrying the requested reference
      credits the caller with a lifetime record, and a subscription carrying the
      requested metadata has its updates merged into the caller's record. */
  lemma CheckoutTagsReachCaller(gw: Gateway, caller: Caller, priceId: string, mode: string, answer: Option<string>,
                                session: CheckoutSession, sub: Subscription, eventId: string, now: int)
    requires caller.uid != "" && gw.configured
    requires CreateCheckoutSession(gw, Some(caller), Some(Str(priceId)), Some(Str(mode)), answer).calls != []
    requires var config := CreateCheckoutSession(gw, Some(caller), Some(Str(priceId)), Some(Str(mode)), answer).calls[0].config;
             && session.clientReferenceId == Some(config.clientReferenceId) && session.mode == config.mode
             && sub.firebaseUid == Some(config.modeData.firebaseUid)
    ensures mode == "payment" ==>
      Webhooks.EffectOf(Webhooks.Event(eventId, Webhooks.CheckoutCompleted(session)), gw, now)
      == Webhooks.MergeInto(caller.uid, LifetimeRecord(OrNull(session.paymentIntent), OrNull(session.customer), now))
    ensures Webhooks.EffectOf(Webhooks.Event(eventId, Webhooks.SubscriptionUpdated(sub)), gw, now).MergeInto?
    ensures Webhooks.EffectOf(Webhooks.Event(eventId, Webhooks.SubscriptionUpdated(sub)), gw, now).uid == caller.uid
  {
  }

  /** A price id that does not start with `price_` is refused before any request. */
  lemma ForeignPriceRefused(gw: Gateway, caller: Caller, priceId: string, answer: Option<string>)
    requires !StartsWith(priceId, PricePrefix)
    ensures CreateCheckoutSession(gw, Some(caller), Some(Str(priceId)), Some(Str("payment")), answer)
            == CheckoutOutcome(Err(InvalidArgument), [])
  {
  }
}

=== FILE: common.dfy ===
/** Shared vocabulary: optional values, the callable-error taxonomy and the
    handful of JavaScript string operations the handlers rely on
    (`startsWith`, `includes`, `trim`). */
module Common {

  datatype Option<+T> = None | Some(value: T)

  /** The error codes a callable handler can reject with (an `HttpsError`). */
  datatype ErrorCode =
    | Unauthenticated
    | InvalidArgument
    | FailedPrecondition
    | PermissionDenied
    | Internal

  /** Outcome of a callable handler: its returned value or the error code it threw. */
  datatype Result<+T> = Ok(value: T) | Err(code: ErrorCode)

  /** The authenticated caller of a callable handler (`request.auth`): its user
      id and the email address in its token, if any. */
  datatype Caller = Caller(uid: string, email: Option<string>)

  /** JavaScript truthiness of an optional string: `undefined`, `null` and `""` are falsy. */
  predicate Present(o: Option<string>)
  {
    o.Some? && o.value != ""
  }

  /** `s.startsWith(prefix)` */
  predicate StartsWith(s: string, prefix: string)
  {
    |prefix| <= |s| && s[..|prefix|] == prefix
  }

  /** `sub` occurs in `s` at index `i`. */
  predicate OccursAt(s: string, sub: string, i: int)
  {
    0 <= i && i + |sub| <= |s| && s[i..i + |sub|] == sub
  }

  /** `s.includes(sub)`, computed by scanning from the left. */
  function Contains(s: string, sub: string): (b: bool)
    ensures b <==> exists i :: OccursAt(s, sub, i)
    decreases |s|
  {
    if StartsWith(s, sub) then
      assert OccursAt(s, sub, 0);
      true
    else if |s| == 0 then
      assert forall i :: !OccursAt(s, sub, i) by {
        forall i | OccursAt(s, sub, i) ensures false {
        }
      }
      false
    else
      var rest := Contains(s[1..], sub);
      assert forall i :: OccursAt(s[1..], sub, i) ==> OccursAt(s, sub, i + 1) by {
        forall i | OccursAt(s[1..], sub, i) ensures OccursAt(s, sub, i + 1) {
          assert s[i + 1..i + 1 + |sub|] == s[1..][i..i + |sub|];
        }
      }
      assert forall i :: OccursAt(s, sub, i) ==> i >= 1 && OccursAt(s[1..], sub, i - 1) by {
        forall i | OccursAt(s, sub, i) ensures i >= 1 && OccursAt(s[1..], sub, i - 1) {
          assert i != 0;
          assert s[1..][i - 1..i - 1 + |sub|] == s[i..i + |sub|];
        }
      }
      rest
  }

  /** The characters JavaScript's `String.prototype.trim` removes:
      white space (including the Unicode space separators) and line terminators. */
  predicate IsSpace(c: char)
  {
    || ('\U{0009}' <= c <= '\U{000D}')
    || c == '\U{0020}' || c == '\U{00A0}' || c == '\U{1680}'
    || ('\U{2000}' <= c <= '\U{200A}')
    || c == '\U{2028}' || c == '\U{2029}' || c == '\U{202F}' || c == '\U{205F}'
    || c == '\U{3000}' || c == '\U{FEFF}'
  }

  /** Drops leading white space: the result is a suffix of `s`, what was dropped is
      all white space, and the result does not start with white space. */
  function TrimStart(s: string): (r: string)
    ensures |r| <= |s| && r == s[|s| - |r|..]
    ensures forall i :: 0 <= i < |s| - |r| ==> IsSpace(s[i])
    ensures r == [] || !IsSpace(r[0])
    decreases |s|
  {
    if |s| > 0 && IsSpace(s[0]) then TrimStart(s[1..]) else s
  }

  /** Drops trailing white space: the result is a prefix of `s`, what was dropped is
      all white space, and the result does not end with white space. */
  function TrimEnd(s: string): (r: string)
    ensures |r| <= |s| && r == s[..|r|]
    ensures forall i :: |r| <= i < |s| ==> IsSpace(s[i])
    ensures r == [] || !IsSpace(r[|r| - 1])
    decreases |s|
  {
    if |s| > 0 && IsSpace(s[|s| - 1]) then TrimEnd(s[..|s| - 1]) else s
  }

  /** `s.trim()` */
  function Trim(s: string): string
  {
    TrimEnd(TrimStart(s))
  }

  /** `s.trim().length === 0` exactly when every character of `s` is white space. */
  lemma TrimEmptyIffBlank(s: string)
    ensures |Trim(s)| == 0 <==> forall i :: 0 <= i < |s| ==> IsSpace(s[i])
  {
    var t := TrimStart(s);
    assert |t| > 0 ==> t[0] == s[|s| - |t|];
  }

  /** The first `n` elements (all of them when there are fewer): a list call with `limit: n`. */
  function Take<T>(s: seq<T>, n: nat): (r: seq<T>)
    ensures |r| <= n && |r| <= |s|
    ensures |s| <= n ==> r == s
    ensures |s| > n ==> |r| == n
    ensures r == s[..|r|]
  {
    if |s| <= n then s else s[..n]
  }
}

=== FILE: feedback.dfy ===
/** The feedback endpoint: a per-address sliding-window rate limiter in front
    of message validation and a spreadsheet append. */
module Feedback {
  import opened Common
  import opened Store
  import Access

  const RateLimitWindowMs: int := 60000
  const RateLimitMax: nat := 5
  const MaxMessageLength: nat := 2000

  /** The in-memory `rateLimitMap`: past admission times per address. */
  type Limiter = map<string, seq<int>>

  /** `rateLimitMap.get(ip) || []` */
  function History(m: Limiter, ip: string): seq<int>
  {
    if ip in m then m[ip] else []
  }

  /** `timestamps.filter(t => now - t < RATE_LIMIT_WINDOW)` */
  function Recent(ts: seq<int>, now: int): (r: seq<int>)
    ensures |r| <= |ts|
    ensures forall t :: t in r <==> t in ts && now - t < RateLimitWindowMs
  {
    if |ts| == 0 then []
    else
      var rest := Recent(ts[1..], now);
      assert ts == [ts[0]] + ts[1..];
      if now - ts[0] < RateLimitWindowMs then [ts[0]] + rest else rest
  }

  /** `isRateLimited(ip)` at time `now`: whether the request is refused, and
      the limiter afterwards. */
  function IsRateLimited(m: Limiter, ip: string, now: int): (r: (bool, Limiter))
    ensures r.0 <==> |Recent(History(m, ip), now)| >= RateLimitMax
    ensures r.0 ==> r.1 == m
    ensures !r.0 ==> r.1 == m[ip := Recent(History(m, ip), now) + [now]]
  {
    var recent := Recent(History(m, ip), now);
    if |recent| >= RateLimitMax then (true, m) else (false, m[ip := recent + [now]])
  }

  /** No address ever holds more than the maximum number of admissions. */
  predicate Bounded(m: Limiter)
  {
    forall ip :: ip in m ==> |m[ip]| <= RateLimitMax
  }

  lemma LimiterStaysBounded(m: Limiter, ip: string, now: int)
    requires Bounded(m)
    ensures Bounded(IsRateLimited(m, ip, now).1)
  {
  }

  /** A check for one address leaves every other address's history alone. */
  lemma OtherAddressesUntouched(m: Limiter, ip: string, other: string, now: int)
    requires other != ip
    ensures History(IsRateLimited(m, ip, now).1, other) == History(m, other)
  {
  }

  /** `n` checks for one address at the same instant: how many were admitted,
      and the limiter afterwards. */
  function Burst(m: Limiter, ip: string, now: int, n: nat): (r: (nat, Limiter))
    decreases n
  {
    if n == 0 then (0, m)
    else
      var prev := Burst(m, ip, now, n - 1);
      var step := IsRateLimited(prev.1, ip, now);
      (if step.0 then prev.0 else prev.0 + 1, step.1)
  }

  /** One check adds one recent admission exactly when it admits. */
  lemma StepCount(m: Limiter, ip: string, now: int)
    requires |Recent(History(m, ip), now)| <= RateLimitMax
    ensures var step := IsRateLimited(m, ip, now);
            && (step.0 <==> |Recent(History(m, ip), now)| == RateLimitMax)
            && |Recent(History(step.1, ip), now)| == |Recent(History(m, ip), now)| + (if step.0 then 0 else 1)
  {
    var recent := Recent(History(m, ip), now);
    if |recent| < RateLimitMax {
      RecentOfFresh(recent, now);
      assert History(IsRateLimited(m, ip, now).1, ip) == recent + [now];
    }
  }

  /** Within one window, an address is admitted at most five times, however
      many requests it sends: starting from `k` recent admissions, a burst of
      `n` requests admits `min(n, 5 - k)` of them. */
  lemma {:induction false} BurstIsCapped(m: Limiter, ip: string, now: int, n: nat)
    requires |Recent(History(m, ip), now)| <= RateLimitMax
    ensures Burst(m, ip, now, n).0
            == (if n <= RateLimitMax - |Recent(History(m, ip), now)| then n else RateLimitMax - |Recent(History(m, ip), now)|)
    ensures |Recent(History(Burst(m, ip, now, n).1, ip), now)| == |Recent(History(m, ip), now)| + Burst(m, ip, now, n).0
    decreases n
  {
    if n > 0 {
      BurstIsCapped(m, ip, now, n - 1);
      StepCount(Burst(m, ip, now, n - 1).1, ip, now);
    }
  }

  /** Filtering a list that is already recent, extended by `now`, keeps it whole. */
  lemma {:induction false} RecentOfFresh(ts: seq<int>, now: int)
    requires forall t :: t in ts ==> now - t < RateLimitWindowMs
    ensures Recent(ts + [now], now) == ts + [now]
    decreases |ts|
  {
    if |ts| == 0 {
      assert Recent([now], now) == [now] + Recent([], now);
    } else {
      var rest := ts[1..];
      assert forall t :: t in rest ==> t in ts;
      assert (ts + [now])[1..] == rest + [now];
      assert ts[0] in ts;
      RecentOfFresh(rest, now);
      assert Recent(ts + [now], now) == [ts[0]] + (rest + [now]);
      assert [ts[0]] + (rest + [now]) == ts + [now];
    }
  }

  /** A history whose every admission lies a full window back filters to nothing. */
  lemma {:induction false} RecentOfStale(ts: seq<int>, now: int)
    requires forall t :: t in ts ==> now - t >= RateLimitWindowMs
    ensures Recent(ts, now) == []
    decreases |ts|
  {
    if |ts| > 0 {
      assert forall t :: t in ts[1..] ==> t in ts;
      assert ts[0] in ts;
      RecentOfStale(ts[1..], now);
    }
  }

  /** Once a full window has passed since an address's last admission, it is
      admitted again. */
  lemma WindowClears(m: Limiter, ip: string, last: int, now: int)
    requires forall t :: t in History(m, ip) ==> t <= last
    requires now >= last + RateLimitWindowMs
    ensures !IsRateLimited(m, ip, now).0
  {
    RecentOfStale(History(m, ip), now);
  }

  /** The submission as the handler reads it. */
  datatype FeedbackRequest = FeedbackRequest(
    httpMethod: string,
    ip: Option<string>,
    forwardedFor: Option<string>,
    message: Option<Value>,
    page: Option<Value>,
    userAgent: Option<Value>)

  /** One spreadsheet row: timestamp, trimmed message, page, user agent. */
  datatype Row = Row(timestamp: Value, message: string, page: Value, userAgent: Value)

  /** The limiter afterwards, the HTTP status, and the row sent to the
      spreadsheet, if any. */
  datatype FeedbackOutcome = FeedbackOutcome(limiter: Limiter, status: int, row: Option<Row>)

  /** `req.ip || req.headers['x-forwarded-for'] || 'unknown'` */
  function ClientAddress(req: FeedbackRequest): (ip: string)
    ensures Present(req.ip) ==> ip == req.ip.value
    ensures !Present(req.ip) && Present(req.forwardedFor) ==> ip == req.forwardedFor.value
    ensures !Present(req.ip) && !Present(req.forwardedFor) ==> ip == "unknown"
  {
    if Present(req.ip) then req.ip.value
    else if Present(req.forwardedFor) then req.forwardedFor.value
    else "unknown"
  }

  /** The message is a string with visible content and at most 2000 characters. */
  predicate ValidMessage(message: Option<Value>)
  {
    message.Some? && message.value.Str? && Trim(message.value.s) != "" && |message.value.s| <= MaxMessageLength
  }

  /** `submitFeedback`. `appendOk` is whether the spreadsheet accepts the row. */
  function SubmitFeedback(m: Limiter, req: FeedbackRequest, appendOk: bool, now: int): (r: FeedbackOutcome)
    // a wrong method is refused without counting against the address
    ensures req.httpMethod != "POST" ==> r == FeedbackOutcome(m, 405, None)
    // the limiter runs before validation, so an invalid body still uses up quota
    ensures req.httpMethod == "POST" ==> r.limiter == IsRateLimited(m, ClientAddress(req), now).1
    ensures req.httpMethod == "POST" && IsRateLimited(m, ClientAddress(req), now).0 ==> r.status == 429 && r.row.None?
    ensures req.httpMethod == "POST" && !IsRateLimited(m, ClientAddress(req), now).0 && !ValidMessage(req.message) ==>
      r.status == 400 && r.row.None?
    ensures r.row.Some? <==> req.httpMethod == "POST" && !IsRateLimited(m, ClientAddress(req), now).0 && ValidMessage(req.message)
    ensures r.row.Some? ==>
      && r.row.value.message == Trim(req.message.value.s)
      && r.row.value.timestamp == Iso(now)
      && r.row.value.page == Access.Or(req.page, Str(""))
      && r.row.value.userAgent == Access.Or(req.userAgent, Str(""))
      && r.status == (if appendOk then 200 else 500)
    ensures r.status in {200, 400, 405, 429, 500}
  {
    if req.httpMethod != "POST" then FeedbackOutcome(m, 405, None)
    else
      var (limited, m') := IsRateLimited(m, ClientAddress(req), now);
      if limited then FeedbackOutcome(m', 429, None)
      else if !ValidMessage(req.message) then FeedbackOutcome(m', 400, None)
      else
        var row := Row(Iso(now), Trim(req.message.value.s), Access.Or(req.page, Str("")), Access.Or(req.userAgent, Str("")));
        FeedbackOutcome(m', if appendOk then 200 else 500, Some(row))
  }

  /** The length bound is on the message as sent, before trimming: exactly 2000
      characters pass, 2001 do not, even when trimming would shorten them. */
  lemma LengthBoundIsOnRawMessage(s: string)
    requires Trim(s) != ""
    ensures |s| == MaxMessageLength ==> ValidMessage(Some(Str(s)))
    ensures |s| == MaxMessageLength + 1 ==> !ValidMessage(Some(Str(s)))
  {
  }

  /** A message of blanks alone is refused, whatever its length. */
  lemma BlankMessageRefused(s: string)
    requires forall i :: 0 <= i < |s| ==> IsSpace(s[i])
    ensures !ValidMessage(Some(Str(s)))
  {
    TrimEmptyIffBlank(s);
  }
}

=== FILE: portal.dfy ===
/** The billing-portal handler: a portal session for the gateway customer
    recorded under `users/{uid}/subscription`. */
module Portal {
  import opened Common
  import opened Store
  import opened Billing
  import Webhooks

  const PortalReturnUrl: string := "https://pomodorotimer.vip/"

  /** The portal url returned (or the error thrown) and the gateway requests made. */
  datatype PortalOutcome = PortalOutcome(result: Result<string>, calls: seq<Call>)

  /** `createPortalSession`. `answer` is the url of the created portal session,
      `None` when the request throws. The handler writes nothing. */
  function CreatePortalSession(db: Db, gw: Gateway, caller: Option<Caller>, answer: Option<string>): (r: PortalOutcome)
    ensures caller.None? ==> r == PortalOutcome(Err(Unauthenticated), [])
    // the gateway client is obtained before the record is read
    ensures caller.Some? && !gw.configured ==> r == PortalOutcome(Err(Internal), [])
    ensures caller.Some? && gw.configured
            && (WebhookRecordPath(caller.value.uid) !in db || !FieldTruthy(db[WebhookRecordPath(caller.value.uid)], "customerId")) ==>
      r == PortalOutcome(Err(FailedPrecondition), [])
    // the one request names the stored customer and the fixed return address
    ensures r.calls != [] ==>
      && caller.Some? && WebhookRecordPath(caller.value.uid) in db
      && r.calls == [Call.CreatePortalSession(db[WebhookRecordPath(caller.value.uid)]["customerId"], PortalReturnUrl)]
    ensures r.result.Ok? <==>
      && caller.Some? && gw.configured && WebhookRecordPath(caller.value.uid) in db
      && FieldTruthy(db[WebhookRecordPath(caller.value.uid)], "customerId") && answer.Some?
    ensures r.result.Ok? ==> r.result.value == answer.value
    ensures r.result.Err? ==> r.result.code in {Unauthenticated, Internal, FailedPrecondition}
    // with a stored customer, a failed portal create is internal
    ensures caller.Some? && WebhookRecordPath(caller.value.uid) in db
            && FieldTruthy(db[WebhookRecordPath(caller.value.uid)], "customerId") && r.result.Err? ==>
      r.result.code == Internal
  {
    if caller.None? then PortalOutcome(Err(Unauthenticated), [])
    else if !gw.configured then PortalOutcome(Err(Internal), [])
    else
      var path := WebhookRecordPath(caller.value.uid);
      if path !in db || !FieldTruthy(db[path], "customerId") then PortalOutcome(Err(FailedPrecondition), [])
      else
        var calls := [Call.CreatePortalSession(db[path]["customerId"], PortalReturnUrl)];
        match answer
        case None => PortalOutcome(Err(Internal), calls)
        case Some(url) => PortalOutcome(Ok(url), calls)
  }

  /** The portal reads the webhook's record and not the status record: a user
      whose only record is `users/{uid}/subscription/status` (as written by the
      pull sync, the self-healing verification and the admin backfill) is refused,
      whatever that record holds. */
  lemma PortalIgnoresStatusRecord(db: Db, gw: Gateway, caller: Caller, status: Doc, answer: Option<string>)
    requires gw.configured && WebhookRecordPath(caller.uid) !in db
    ensures CreatePortalSession(db[StatusPath(caller.uid) := status], gw, Some(caller), answer)
            == PortalOutcome(Err(FailedPrecondition), [])
  {
    StatusPathIsNotWebhookPath(caller.uid, caller.uid);
  }

  /** A completed one-time checkout delivered by the webhook, with a customer
      attached, is what makes the portal reachable: afterwards the portal
      request names exactly that customer. */
  lemma WebhookCheckoutOpensPortal(db: Db, gw: Gateway, event: Webhooks.Event, now: int, caller: Caller, answer: Option<string>)
    requires event.data.CheckoutCompleted?
    requires event.data.session.clientReferenceId == Some(caller.uid) && caller.uid != ""
    requires event.data.session.mode == "payment" && Present(event.data.session.customer)
    requires gw.configured
    ensures var after := Webhooks.ProcessEvent(db, gw, event, now);
            && after.Some?
            && CreatePortalSession(after.value, gw, Some(caller), answer).calls
               == [Call.CreatePortalSession(Str(event.data.session.customer.value), PortalReturnUrl)]
  {
    var after := Webhooks.ProcessEvent(db, gw, event, now).value;
    assert after[WebhookRecordPath(caller.uid)]["customerId"] == Str(event.data.session.customer.value);
  }
}

=== FILE: service_worker.dfy ===
/** The offline service worker: install pre-caches the app shell, activate
    drops every other cache version, and fetch serves from the cache except for
    video hosts, which always go to the network. */
module ServiceWorker {
  import opened Common

  const CacheName: string := "pomodoro-v34"
  const Assets: seq<string> := ["./", "index.html", "manifest.json"]

  /** Hosts whose responses are never served from the cache. */
  const BypassHosts: seq<string> := ["youtube.com", "youtube-nocookie.com", "googlevideo.com", "ytimg.com"]

  /** A response body, standing for the response object. */
  datatype Response = Response(body: string)

  /** One named cache: request url to stored response. */
  datatype Cache = Cache(name: string, entries: map<string, Response>)

  /** The cache storage, in creation order (the order `caches.match` searches). */
  type Storage = seq<Cache>

  datatype Request = Request(url: string, hostname: string)

  /** `url.hostname.includes(d)` for one of the four video hosts. */
  function Bypass(hostname: string): (b: bool)
    ensures b <==> exists k :: 0 <= k < |BypassHosts| && Contains(hostname, BypassHosts[k])
  {
    var b := Contains(hostname, "youtube.com") || Contains(hostname, "youtube-nocookie.com")
             || Contains(hostname, "googlevideo.com") || Contains(hostname, "ytimg.com");
    assert BypassHosts[0] == "youtube.com" && BypassHosts[1] == "youtube-nocookie.com"
           && BypassHosts[2] == "googlevideo.com" && BypassHosts[3] == "ytimg.com";
    b
  }

  /** `caches.match(url)`: the entry of the first cache holding the url. */
  function Match(storage: Storage, url: string): (r: Option<Response>)
    ensures r.Some? <==> exists k :: 0 <= k < |storage| && url in storage[k].entries
    ensures r.Some? ==> exists k :: 0 <= k < |storage| && url in storage[k].entries && r.value == storage[k].entries[url]
    ensures forall k :: 0 <= k < |storage| && url in storage[k].entries ==>
              (forall j :: 0 <= j < k ==> url !in storage[j].entries) ==> r == Some(storage[k].entries[url])
  {
    if |storage| == 0 then None
    else if url in storage[0].entries then Some(storage[0].entries[url])
    else
      var r := Match(storage[1..], url);
      assert forall k :: 0 < k < |storage| ==> storage[1..][k - 1] == storage[k];
      r
  }

  /** Where a response came from. */
  datatype Source = Network | Cached

  /** The fetch handler: `network` is what the network would return. */
  function HandleFetch(storage: Storage, req: Request, network: Response): (r: (Response, Source))
    ensures Bypass(req.hostname) ==> r == (network, Network)
    ensures !Bypass(req.hostname) && Match(storage, req.url).Some? ==> r == (Match(storage, req.url).value, Cached)
    ensures !Bypass(req.hostname) && Match(storage, req.url).None? ==> r == (network, Network)
  {
    if Bypass(req.hostname) then (network, Network)
    else match Match(storage, req.url)
      case Some(cached) => (cached, Cached)
      case None => (network, Network)
  }

  /** `caches.keys()` followed by deleting every key other than the current one. */
  function Activate(storage: Storage): (r: Storage)
    ensures forall k :: 0 <= k < |r| ==> r[k].name == CacheName
    ensures forall c :: c in r <==> c in storage && c.name == CacheName
    // the order is kept, so the first current cache comes first
    ensures forall k :: (0 <= k < |storage| && storage[k].name == CacheName
                         && (forall j :: 0 <= j < k ==> storage[j].name != CacheName)) ==> |r| > 0 && r[0] == storage[k]
    decreases |storage|
  {
    if |storage| == 0 then []
    else
      var rest := Activate(storage[1..]);
      assert storage == [storage[0]] + storage[1..];
      assert forall k :: 0 < k < |storage| ==> storage[1..][k - 1] == storage[k];
      if storage[0].name == CacheName then [storage[0]] + rest else rest
  }

  /** Every url in `assets`, each with the response the network gave for it. */
  predicate AllFetched(assets: seq<string>, fetched: map<string, Response>)
  {
    forall k :: 0 <= k < |assets| ==> assets[k] in fetched
  }

  /** `entries` with every asset stored under its fetched response. */
  function AddAll(entries: map<string, Response>, assets: seq<string>, fetched: map<string, Response>): (r: map<string, Response>)
    requires AllFetched(assets, fetched)
    ensures forall u :: u in r <==> u in entries || u in assets
    ensures forall u :: u in assets ==> r[u] == fetched[u]
    ensures forall u :: u in entries && u !in assets ==> r[u] == entries[u]
    decreases |assets|
  {
    if |assets| == 0 then entries
    else
      assert assets == [assets[0]] + assets[1..];
      assert forall k :: 0 < k < |assets| ==> assets[1..][k - 1] == assets[k];
      AddAll(entries[assets[0] := fetched[assets[0]]], assets[1..], fetched)
  }

  /** `caches.open(CACHE_NAME)`: the storage with the current cache present,
      and its index. */
  function Open(storage: Storage): (r: (Storage, nat))
    ensures r.1 < |r.0| && r.0[r.1].name == CacheName
    ensures forall j :: 0 <= j < r.1 ==> r.0[j].name != CacheName
    ensures (exists k :: 0 <= k < |storage| && storage[k].name == CacheName) ==> r.0 == storage
    ensures (forall k :: 0 <= k < |storage| ==> storage[k].name != CacheName) ==>
              r.0 == storage + [Cache(CacheName, map[])]
    decreases |storage|
  {
    if |storage| == 0 then ([Cache(CacheName, map[])], 0)
    else if storage[0].name == CacheName then (storage, 0)
    else
      var rest := Open(storage[1..]);
      assert storage == [storage[0]] + storage[1..];
      assert forall k :: 0 < k < |storage| ==> storage[1..][k - 1] == storage[k];
      ([storage[0]] + rest.0, rest.1 + 1)
  }

  /** The install handler. `fetched` holds the network's responses; `addAll`
      is all or nothing, so when any asset is missing none is stored. Returns
      the storage and the index of the current cache in it. */
  function Install(storage: Storage, fetched: map<string, Response>): (r: (Storage, nat))
    ensures r.1 < |r.0| && r.0[r.1].name == CacheName
    ensures forall j :: 0 <= j < r.1 ==> r.0[j].name != CacheName
    // no other cache is touched
    ensures |storage| <= |r.0| && forall j :: 0 <= j < |storage| && j != r.1 ==> r.0[j] == storage[j]
    ensures AllFetched(Assets, fetched) ==>
      forall a :: a in Assets ==> a in r.0[r.1].entries && r.0[r.1].entries[a] == fetched[a]
    ensures !AllFetched(Assets, fetched) ==> r.0 == Open(storage).0
  {
    var (present, k) := Open(storage);
    if AllFetched(Assets, fetched) then
      var cache := present[k];
      (present[k := Cache(cache.name, AddAll(cache.entries, Assets, fetched))], k)
    else (present, k)
  }

  /** After a complete install and an activation, the app shell is served from
      the cache: every asset request answers with the installed response and
      never needs the network. */
  lemma InstalledShellServedOffline(storage: Storage, fetched: map<string, Response>, asset: string,
                                    hostname: string, network: Response)
    requires AllFetched(Assets, fetched) && asset in Assets
    requires !Bypass(hostname)
    ensures var ready := Activate(Install(storage, fetched).0);
            HandleFetch(ready, Request(asset, hostname), network) == (fetched[asset], Cached)
  {
    var (installed, k) := Install(storage, fetched);
    var ready := Activate(installed);
    assert ready[0] == installed[k];
    assert asset in ready[0].entries;
    assert Match(ready, asset) == Some(ready[0].entries[asset]);
  }
}

=== FILE: store.dfy ===
/** The document store the handlers share, keyed by literal document path.
    Each document is a flat map from field name to value. The three write forms
    of the store client are modelled here: a merge write (`set(..., {merge: true})`)
    is a right-biased union with the existing fields, a plain `set` replaces the
    document, and `update` merges into a document that must already exist. */
module Store {
  import opened Common

  /** A field value. `Iso(ms)` is a clock reading written as `toISOString()`
      (so a string); `Stamp(ms)` is a `Date` written as a store timestamp. */
  datatype Value =
    | Str(s: string)
    | Int(i: int)
    | Bool(b: bool)
    | Null
    | Iso(isoMs: int)
    | Stamp(stampMs: int)

  type Doc = map<string, Value>
  type Db = map<string, Doc>

  /** JavaScript truthiness of a stored value. */
  predicate Truthy(v: Value)
  {
    match v
    case Str(s) => s != ""
    case Int(i) => i != 0
    case Bool(b) => b
    case Null => false
    case Iso(_) => true
    case Stamp(_) => true
  }

  /** `data.key`: `None` stands for `undefined`. */
  function Field(doc: Doc, key: string): Option<Value>
  {
    if key in doc then Some(doc[key]) else None
  }

  /** `!!data.key` */
  predicate FieldTruthy(doc: Doc, key: string)
  {
    key in doc && Truthy(doc[key])
  }

  /** `x as string` for a nullable string read from a gateway object. */
  function OrNull(o: Option<string>): (v: Value)
    ensures v == Null <==> o.None?
  {
    match o
    case Some(s) => Str(s)
    case None => Null
  }

  /** `doc(path).set(fields, {merge: true})` */
  function Merge(db: Db, path: string, fields: Doc): (r: Db)
    ensures r.Keys == db.Keys + {path}
    ensures forall p :: p in db && p != path ==> r[p] == db[p]
    ensures r[path].Keys == (if path in db then db[path].Keys else {}) + fields.Keys
    ensures forall k :: k in fields ==> r[path][k] == fields[k]
    ensures forall k :: path in db && k in db[path] && k !in fields ==> r[path][k] == db[path][k]
  {
    db[path := (if path in db then db[path] else map[]) + fields]
  }

  /** `doc(path).set(fields)`: the previous fields are discarded. */
  function Overwrite(db: Db, path: string, fields: Doc): (r: Db)
    ensures r.Keys == db.Keys + {path}
    ensures forall p :: p in db && p != path ==> r[p] == db[p]
    ensures r[path] == fields
  {
    db[path := fields]
  }

  /** `doc(path).update(fields)`: merges into an existing document and fails
      (`None`) when the document does not exist. */
  function Update(db: Db, path: string, fields: Doc): (r: Option<Db>)
    ensures r.Some? <==> path in db
    ensures r.Some? ==> r.value == Merge(db, path, fields)
  {
    if path in db then Some(db[path := db[path] + fields]) else None
  }

  /** `doc(path).delete()` */
  function Delete(db: Db, path: string): (r: Db)
    ensures r.Keys == db.Keys - {path}
    ensures forall p :: p in r ==> r[p] == db[p]
  {
    db - {path}
  }

  /** A merge write of the same fields twice leaves what one write leaves. */
  lemma MergeIdempotent(db: Db, path: string, fields: Doc)
    ensures Merge(Merge(db, path, fields), path, fields) == Merge(db, path, fields)
  {
    var once := Merge(db, path, fields);
    assert once[path] + fields == once[path];
  }

  /** On a path that holds no document, a merge write and a plain `set` agree. */
  lemma MergeOnFreshPathIsOverwrite(db: Db, path: string, fields: Doc)
    requires path !in db
    ensures Merge(db, path, fields) == Overwrite(db, path, fields)
  {
    assert map[] + fields == fields;
  }

  // Document paths, spelled as the handlers spell them.

  /** `users/{uid}/subscription/status`: the record read by verification, sync,
      cancellation and the admin backfill. */
  function StatusPath(uid: string): string
  {
    "users/" + uid + "/subscription/status"
  }

  /** `users/{uid}/subscription`: the path the webhook handler and the portal use. */
  function WebhookRecordPath(uid: string): string
  {
    "users/" + uid + "/subscription"
  }

  /** `users/{uid}`: the user document holding the Todoist token. */
  function UserPath(uid: string): string
  {
    "users/" + uid
  }

  /** `stripe_events/{id}`: the webhook event ledger. */
  function EventPath(id: string): string
  {
    "stripe_events/" + id
  }

  /** `todoistOAuthStates/{state}` */
  function OAuthStatePath(state: string): string
  {
    "todoistOAuthStates/" + state
  }

  /** The two subscription paths never name the same document, whatever the
      user ids: one ends in "n", the other in "s". */
  lemma StatusPathIsNotWebhookPath(a: string, b: string)
    ensures StatusPath(a) != WebhookRecordPath(b)
  {
    var p, q := StatusPath(a), WebhookRecordPath(b);
    assert p[|p| - 1] == 's';
    assert q[|q| - 1] == 'n';
  }

  /** Ledger entries, OAuth states and user documents live in different collections. */
  lemma CollectionsAreDisjoint(id: string, state: string, uid: string)
    ensures EventPath(id) != StatusPath(uid) && EventPath(id) != WebhookRecordPath(uid)
    ensures EventPath(id) != UserPath(uid) && EventPath(id) != OAuthStatePath(state)
    ensures OAuthStatePath(state) != StatusPath(uid) && OAuthStatePath(state) != WebhookRecordPath(uid)
    ensures OAuthStatePath(state) != UserPath(uid)
  {
    assert EventPath(id)[0] == 's';
    assert OAuthStatePath(state)[0] == 't';
    assert StatusPath(uid)[0] == 'u' && WebhookRecordPath(uid)[0] == 'u' && UserPath(uid)[0] == 'u';
  }

  /** A user id that holds no '/', as the handlers take a uid to be. */
  predicate SegmentId(uid: string)
  {
    forall k :: 0 <= k < |uid| ==> uid[k] != '/'
  }

  /** A user document is never another user's status or webhook record, when
      the first user's id holds no '/'; otherwise the literal paths may meet. */
  lemma UserPathIsNoRecordPath(a: string, b: string)
    requires SegmentId(a)
    ensures UserPath(a) != StatusPath(b) && UserPath(a) != WebhookRecordPath(b)
  {
    UserPathIsNoStatusPath(a, b);
    UserPathIsNoWebhookPath(a, b);
  }

  lemma UserPathIsNoStatusPath(a: string, b: string)
    requires SegmentId(a)
    ensures UserPath(a) != StatusPath(b)
  {
    // the record path has a '/' right after `b`, where the user path has a character of `a`
    assert StatusPath(b)[6 + |b|] == '/';
    assert 6 + |b| < |UserPath(a)| ==> UserPath(a)[6 + |b|] == a[|b|];
  }

  lemma UserPathIsNoWebhookPath(a: string, b: string)
    requires SegmentId(a)
    ensures UserPath(a) != WebhookRecordPath(b)
  {
    // the record path has a '/' right after `b`, where the user path has a character of `a`
    assert WebhookRecordPath(b)[6 + |b|] == '/';
    assert 6 + |b| < |UserPath(a)| ==> UserPath(a)[6 + |b|] == a[|b|];
  }

  /** Different users have different status records. */
  lemma StatusPathInjective(a: string, b: string)
    ensures StatusPath(a) == StatusPath(b) ==> a == b
  {
    if StatusPath(a) == StatusPath(b) {
      assert |a| == |b|;
      assert a == StatusPath(a)[6..6 + |a|];
      assert b == StatusPath(b)[6..6 + |b|];
    }
  }
}

=== FILE: sync_checkout.dfy ===
/** The client-triggered pull sync: after returning from checkout, the client
    asks for the checkout session to be applied to its own status record. */
module SyncCheckout {
  import opened Common
  import opened Store
  import opened Billing
  import opened StripeHelpers
  import opened Access
  import Webhooks
  import Verification

  /** The store after the call, the status returned (or the error thrown) and
      the gateway requests made. */
  datatype SyncOutcome = SyncOutcome(db: Db, result: Result<string>, calls: seq<Call>)

  /** `sessionId` is present, a string, and not empty. */
  predicate ValidSessionId(sessionId: Option<Value>)
  {
    sessionId.Some? && sessionId.value.Str? && sessionId.value.s != ""
  }

  /** The caller is signed in, names a session by a valid id, the gateway is
      configured and finds the session, and the session is the caller's. */
  predicate OwnSession(gw: Gateway, caller: Option<Caller>, sessionId: Option<Value>)
  {
    && caller.Some? && ValidSessionId(sessionId) && gw.configured && sessionId.value.s in gw.sessions
    && gw.sessions[sessionId.value.s].clientReferenceId == Some(caller.value.uid)
  }

  /** `syncCheckoutSession`. `sessionId` is the request's `sessionId` field, of
      any JSON type or absent. */
  function SyncCheckoutSession(db: Db, gw: Gateway, caller: Option<Caller>, sessionId: Option<Value>, now: int): (r: SyncOutcome)
    ensures caller.None? ==> r == SyncOutcome(db, Err(Unauthenticated), [])
    ensures caller.Some? && !ValidSessionId(sessionId) ==> r == SyncOutcome(db, Err(InvalidArgument), [])
    // both checks run before any gateway request
    ensures r.calls != [] ==> caller.Some? && ValidSessionId(sessionId)
    ensures r.calls != [] ==> r.calls[0] == RetrieveSession(sessionId.value.s)
    // a session that is not the caller's is refused, whatever its payment state
    ensures caller.Some? && ValidSessionId(sessionId) && gw.configured && sessionId.value.s in gw.sessions
            && gw.sessions[sessionId.value.s].clientReferenceId != Some(caller.value.uid) ==>
      r == SyncOutcome(db, Err(PermissionDenied), [RetrieveSession(sessionId.value.s)])
    ensures r.result.Err? ==> r.db == db
    // an unconfigured gateway or a session the gateway does not know is internal
    ensures caller.Some? && ValidSessionId(sessionId) && (!gw.configured || sessionId.value.s !in gw.sessions) ==>
      r.result == Err(Internal) && r.db == db
    // only the caller's own session can succeed
    ensures r.result.Ok? ==> OwnSession(gw, caller, sessionId)
    // an unpaid one-time session is refused
    ensures OwnSession(gw, caller, sessionId) && gw.sessions[sessionId.value.s].paymentStatus == "unpaid"
            && gw.sessions[sessionId.value.s].mode != "subscription" ==>
      r == SyncOutcome(db, Err(FailedPrecondition), [RetrieveSession(sessionId.value.s)])
    // a paid one-time session grants lifetime access
    ensures OwnSession(gw, caller, sessionId) && gw.sessions[sessionId.value.s].paymentStatus != "unpaid"
            && gw.sessions[sessionId.value.s].mode == "payment" ==>
      var session := gw.sessions[sessionId.value.s];
      r == SyncOutcome(Merge(db, StatusPath(caller.value.uid),
                             LifetimeRecord(OrNull(session.paymentIntent), OrNull(session.customer), now)),
                       Ok("lifetime"), [RetrieveSession(sessionId.value.s)])
    // a session of another mode is answered as unknown, with no write
    ensures OwnSession(gw, caller, sessionId) && gw.sessions[sessionId.value.s].paymentStatus != "unpaid"
            && gw.sessions[sessionId.value.s].mode !in {"subscription", "payment"} ==>
      r == SyncOutcome(db, Ok("unknown"), [RetrieveSession(sessionId.value.s)])
    // a recurring session answers the retrieved subscription's status, or internal when it cannot be retrieved
    ensures OwnSession(gw, caller, sessionId) && gw.sessions[sessionId.value.s].mode == "subscription" ==>
      var session := gw.sessions[sessionId.value.s];
      && (Retrieve(gw, session.subscription).None? ==> r.result == Err(Internal) && r.db == db)
      && (Retrieve(gw, session.subscription).Some? ==>
            r.result == Ok(Retrieve(gw, session.subscription).value.status)
            && r.calls == [RetrieveSession(sessionId.value.s), RetrieveSubscription(session.subscription.value)])
    // the only document written is the caller's own status record, and only for
    // a session that belongs to the caller and is paid or recurring
    ensures r.db != db ==>
      && caller.Some? && ValidSessionId(sessionId) && sessionId.value.s in gw.sessions
      && gw.sessions[sessionId.value.s].clientReferenceId == Some(caller.value.uid)
      && !(gw.sessions[sessionId.value.s].paymentStatus == "unpaid" && gw.sessions[sessionId.value.s].mode != "subscription")
      && r.db.Keys == db.Keys + {StatusPath(caller.value.uid)}
      && (forall p :: p in db && p != StatusPath(caller.value.uid) ==> r.db[p] == db[p])
    ensures |r.calls| <= 2
  {
    if caller.None? then SyncOutcome(db, Err(Unauthenticated), [])
    else if !ValidSessionId(sessionId) then SyncOutcome(db, Err(InvalidArgument), [])
    else if !gw.configured then SyncOutcome(db, Err(Internal), [])
    else
      var uid := caller.value.uid;
      var id := sessionId.value.s;
      if id !in gw.sessions then SyncOutcome(db, Err(Internal), [RetrieveSession(id)])
      else if gw.sessions[id].clientReferenceId != Some(uid) then SyncOutcome(db, Err(PermissionDenied), [RetrieveSession(id)])
      else ApplyOwnSession(db, gw, uid, id, now)
  }

  /** The rest of the sync once session `id` is known to be user `uid`'s: the
      payment check, then the write for its mode. */
  function ApplyOwnSession(db: Db, gw: Gateway, uid: string, id: string, now: int): (r: SyncOutcome)
    requires id in gw.sessions && gw.sessions[id].clientReferenceId == Some(uid)
    ensures gw.sessions[id].paymentStatus == "unpaid" && gw.sessions[id].mode != "subscription" ==>
      r == SyncOutcome(db, Err(FailedPrecondition), [RetrieveSession(id)])
    ensures gw.sessions[id].paymentStatus != "unpaid" && gw.sessions[id].mode == "payment" ==>
      var session := gw.sessions[id];
      r == SyncOutcome(Merge(db, StatusPath(uid), LifetimeRecord(OrNull(session.paymentIntent), OrNull(session.customer), now)),
                       Ok("lifetime"), [RetrieveSession(id)])
    ensures gw.sessions[id].paymentStatus != "unpaid" && gw.sessions[id].mode !in {"subscription", "payment"} ==>
      r == SyncOutcome(db, Ok("unknown"), [RetrieveSession(id)])
    ensures gw.sessions[id].mode == "subscription" ==>
      var session := gw.sessions[id];
      && (Retrieve(gw, session.subscription).None? ==> r.result == Err(Internal) && r.db == db)
      && (Retrieve(gw, session.subscription).Some? ==>
            && r.result == Ok(Retrieve(gw, session.subscription).value.status)
            && r.calls == [RetrieveSession(id), RetrieveSubscription(session.subscription.value)]
            && r.db == Merge(db, StatusPath(uid), SubscriptionRecord(session.subscription.value,
                             Retrieve(gw, session.subscription).value, OrNull(session.customer), now)))
    ensures r.result.Err? ==> r.db == db
    ensures r.db != db ==>
      && !(gw.sessions[id].paymentStatus == "unpaid" && gw.sessions[id].mode != "subscription")
      && r.db.Keys == db.Keys + {StatusPath(uid)}
      && (forall p :: p in db && p != StatusPath(uid) ==> r.db[p] == db[p])
    ensures 1 <= |r.calls| <= 2 && r.calls[0] == RetrieveSession(id)
  {
    var session := gw.sessions[id];
    var c1 := [RetrieveSession(id)];
    if session.paymentStatus == "unpaid" && session.mode != "subscription" then
      SyncOutcome(db, Err(FailedPrecondition), c1)
    else if session.mode == "subscription" then
      var c2 := c1 + (if session.subscription.Some? then [RetrieveSubscription(session.subscription.value)] else []);
      match Retrieve(gw, session.subscription)
      case None => SyncOutcome(db, Err(Internal), c2)
      case Some(sub) =>
        var record := SubscriptionRecord(session.subscription.value, sub, OrNull(session.customer), now);
        SyncOutcome(Merge(db, StatusPath(uid), record), Ok(sub.status), c2)
    else if session.mode == "payment" then
      var record := LifetimeRecord(OrNull(session.paymentIntent), OrNull(session.customer), now);
      SyncOutcome(Merge(db, StatusPath(uid), record), Ok("lifetime"), c1)
    else SyncOutcome(db, Ok("unknown"), c1)
  }

  /** An unpaid recurring checkout (a trial) is synced like a paid one; an unpaid
      one-time checkout is refused with no write. */
  lemma UnpaidOnlyBlocksOneTime(db: Db, gw: Gateway, caller: Caller, id: string, now: int)
    requires gw.configured && id != "" && id in gw.sessions
    requires gw.sessions[id].clientReferenceId == Some(caller.uid)
    requires gw.sessions[id].paymentStatus == "unpaid"
    ensures var r := SyncCheckoutSession(db, gw, Some(caller), Some(Str(id)), now);
            && (gw.sessions[id].mode != "subscription" ==> r.result == Err(FailedPrecondition) && r.db == db)
            && (gw.sessions[id].mode == "subscription" && Retrieve(gw, gw.sessions[id].subscription).Some? ==>
                  r.result == Ok(Retrieve(gw, gw.sessions[id].subscription).value.status))
  {
  }

  /** The push and pull paths agree: for a session of the caller's, the fields
      the sync merges into `users/{uid}/subscription/status` are exactly the
      fields the webhook's checkout branch merges into `users/{uid}/subscription`. */
  lemma SyncMatchesWebhookCheckout(db: Db, gw: Gateway, caller: Caller, id: string, eventId: string, now: int)
    requires gw.configured && id != "" && id in gw.sessions && caller.uid != ""
    requires gw.sessions[id].clientReferenceId == Some(caller.uid)
    requires SyncCheckoutSession(db, gw, Some(caller), Some(Str(id)), now).db != db
    ensures var effect := Webhooks.EffectOf(Webhooks.Event(eventId, Webhooks.CheckoutCompleted(gw.sessions[id])), gw, now);
            && effect.MergeInto? && effect.uid == caller.uid
            && SyncCheckoutSession(db, gw, Some(caller), Some(Str(id)), now).db == Merge(db, StatusPath(caller.uid), effect.fields)
  {
  }

  /** After a successful recurring sync, verification answers from the record
      the sync wrote, with no gateway request, granting access exactly when the
      synced subscription's status is a premium one. */
  lemma SyncThenVerify(db: Db, gw: Gateway, caller: Caller, id: string, now: int,
                       gw2: Gateway, writable: bool, now2: int)
    requires gw.configured && id != "" && id in gw.sessions
    requires gw.sessions[id].mode == "subscription"
    requires SyncCheckoutSession(db, gw, Some(caller), Some(Str(id)), now).result.Ok?
    ensures var synced := SyncCheckoutSession(db, gw, Some(caller), Some(Str(id)), now);
            var v := Verification.VerifySubscription(synced.db, gw2, Some(caller), writable, now2);
            && v.calls == [] && v.db == synced.db
            && v.result.Ok?
            && (v.result.value.hasAccess <==> IsPremium(synced.result.value))
            && (v.result.value.gracePeriod <==> synced.result.value == "past_due")
  {
    var session := gw.sessions[id];
    var sub := Retrieve(gw, session.subscription).value;
    var synced := SyncCheckoutSession(db, gw, Some(caller), Some(Str(id)), now);
    SyncRecurringWrites(db, gw, caller, id, now);
    var record := synced.db[StatusPath(caller.uid)];
    assert record["status"] == Str(sub.status);
    assert record["priceId"] == PriceIdOf(sub);
    assert Field(record, "status") == Some(Str(sub.status));
    assert Verification.VerifySubscription(synced.db, gw2, Some(caller), writable, now2)
           == Verification.VerifyOutcome(synced.db, Evaluate(record), []);
  }

  /** A successful recurring sync merges the subscription record of the
      retrieved subscription and answers with its status. */
  lemma SyncRecurringWrites(db: Db, gw: Gateway, caller: Caller, id: string, now: int)
    requires gw.configured && id != "" && id in gw.sessions
    requires gw.sessions[id].mode == "subscription"
    requires SyncCheckoutSession(db, gw, Some(caller), Some(Str(id)), now).result.Ok?
    ensures var session := gw.sessions[id];
            var synced := SyncCheckoutSession(db, gw, Some(caller), Some(Str(id)), now);
            && Retrieve(gw, session.subscription).Some?
            && var sub := Retrieve(gw, session.subscription).value;
               && synced.result == Ok(sub.status)
               && synced.db == Merge(db, StatusPath(caller.uid),
                                     SubscriptionRecord(session.subscription.value, sub, OrNull(session.customer), now))
  {
  }
}

=== FILE: todoist_import.dfy ===
/** The Todoist task import: the stored token is used to list the user's
    tasks, and a token the provider rejects is cleared. */
module TodoistImport {
  import opened Common
  import opened Store
  import TodoistOAuth

  /** A task as the provider lists it. */
  datatype RawTask = RawTask(id: string, content: string, projectId: Option<string>)

  /** A task as returned to the client: its id and content only. */
  datatype Task = Task(id: string, content: string)

  /** The provider's reply to the task listing: an HTTP status with a body that
      parses as a task list, an HTTP status with a body that does not (not JSON,
      or not an array), or a throw (network failure). */
  datatype TasksAnswer = Responded(status: int, tasks: seq<RawTask>) | Unparsable(status: int) | FetchThrew

  /** The provider answered with status `code`, whatever the body. */
  predicate AnsweredWith(answer: TasksAnswer, code: int)
  {
    (answer.Responded? || answer.Unparsable?) && answer.status == code
  }

  /** The store after the call, the tasks returned (or the error thrown) and
      the bearer token sent, if a request was made. */
  datatype ImportOutcome = ImportOutcome(db: Db, result: Result<seq<Task>>, sentToken: Option<Value>)

  /** `response.ok` */
  predicate Ok2xx(status: int)
  {
    200 <= status <= 299
  }

  /** The fields merged into the user document when the token is rejected. */
  const Disconnected: Doc := map["todoistToken" := Null, "todoistConnectedAt" := Null]

  /** `tasks.map(t => ({id: t.id, content: t.content}))` */
  function Simplify(tasks: seq<RawTask>): (r: seq<Task>)
    ensures |r| == |tasks|
    ensures forall i :: 0 <= i < |tasks| ==> r[i] == Task(tasks[i].id, tasks[i].content)
  {
    if |tasks| == 0 then [] else [Task(tasks[0].id, tasks[0].content)] + Simplify(tasks[1..])
  }

  /** The stored token, when the user document holds a truthy one. */
  function StoredToken(db: Db, uid: string): (t: Option<Value>)
    ensures t.Some? <==> UserPath(uid) in db && FieldTruthy(db[UserPath(uid)], "todoistToken")
    ensures t.Some? ==> t.value == db[UserPath(uid)]["todoistToken"]
  {
    if UserPath(uid) in db && FieldTruthy(db[UserPath(uid)], "todoistToken") then Some(db[UserPath(uid)]["todoistToken"])
    else None
  }

  /** `importTodoistTasks`. `answer` is the provider's reply to the listing. */
  function ImportTodoistTasks(db: Db, caller: Option<Caller>, answer: TasksAnswer): (r: ImportOutcome)
    ensures caller.None? ==> r == ImportOutcome(db, Err(Unauthenticated), None)
    // without a token nothing is requested
    ensures caller.Some? && StoredToken(db, caller.value.uid).None? ==> r == ImportOutcome(db, Err(FailedPrecondition), None)
    ensures r.sentToken.Some? ==> caller.Some? && r.sentToken == StoredToken(db, caller.value.uid)
    // a rejected token is cleared and the caller is told to reconnect
    ensures caller.Some? && StoredToken(db, caller.value.uid).Some? && AnsweredWith(answer, 401) ==>
      r.result == Err(Unauthenticated) && r.db == Merge(db, UserPath(caller.value.uid), Disconnected)
    // only a 401 writes
    ensures r.db != db ==> caller.Some? && AnsweredWith(answer, 401)
    ensures r.result.Ok? <==>
      caller.Some? && StoredToken(db, caller.value.uid).Some? && answer.Responded? && Ok2xx(answer.status)
    // a network failure, any other non-2xx status and a 2xx body that is not a
    // task list are internal, with no write
    ensures caller.Some? && StoredToken(db, caller.value.uid).Some?
            && !AnsweredWith(answer, 401) && !(answer.Responded? && Ok2xx(answer.status)) ==>
      r == ImportOutcome(db, Err(Internal), StoredToken(db, caller.value.uid))
    // the listing is returned whole, in order, reduced to id and content
    ensures r.result.Ok? ==>
      && |r.result.value| == |answer.tasks|
      && forall i :: 0 <= i < |answer.tasks| ==>
           r.result.value[i].id == answer.tasks[i].id && r.result.value[i].content == answer.tasks[i].content
  {
    if caller.None? then ImportOutcome(db, Err(Unauthenticated), None)
    else
      var uid := caller.value.uid;
      match StoredToken(db, uid)
      case None => ImportOutcome(db, Err(FailedPrecondition), None)
      case Some(token) =>
        match answer
        case FetchThrew => ImportOutcome(db, Err(Internal), Some(token))
        case Responded(status, tasks) =>
          if status == 401 then ImportOutcome(Merge(db, UserPath(uid), Disconnected), Err(Unauthenticated), Some(token))
          else if !Ok2xx(status) then ImportOutcome(db, Err(Internal), Some(token))
          else ImportOutcome(db, Ok(Simplify(tasks)), Some(token))
        case Unparsable(status) =>
          if status == 401 then ImportOutcome(Merge(db, UserPath(uid), Disconnected), Err(Unauthenticated), Some(token))
          else ImportOutcome(db, Err(Internal), Some(token))
  }

  /** After the provider rejects the token, the next import asks the user to
      reconnect without contacting the provider, whatever the provider would say. */
  lemma RejectedTokenDisconnects(db: Db, caller: Caller, tasks: seq<RawTask>, next: TasksAnswer)
    requires StoredToken(db, caller.uid).Some?
    ensures var first := ImportTodoistTasks(db, Some(caller), Responded(401, tasks));
            ImportTodoistTasks(first.db, Some(caller), next) == ImportOutcome(first.db, Err(FailedPrecondition), None)
  {
    var first := ImportTodoistTasks(db, Some(caller), Responded(401, tasks));
    assert first.db[UserPath(caller.uid)]["todoistToken"] == Null;
  }

  /** Connecting makes importing possible: after a successful callback, an
      import by the connected user sends the token the provider issued. */
  lemma ConnectThenImport(db: Db, code: string, state: string, secrets: TodoistOAuth.Secrets, token: string, now: int,
                          caller: Caller, answer: TasksAnswer)
    requires var cb := TodoistOAuth.OAuthCallback(db, Some(code), Some(state), None, secrets, TodoistOAuth.Body(Some(token)), now);
             && cb.redirect == TodoistOAuth.Connected
             && db[OAuthStatePath(state)]["uid"] == Str(caller.uid)
    ensures var cb := TodoistOAuth.OAuthCallback(db, Some(code), Some(state), None, secrets, TodoistOAuth.Body(Some(token)), now);
            ImportTodoistTasks(cb.db, Some(caller), answer).sentToken == Some(Str(token))
  {
  }
}

=== FILE: todoist_oauth.dfy ===
/** The Todoist connection flow: the authorize step records a one-time state
    for the caller, and the callback consumes it, exchanges the code for a
    token and stores the token on the user document. */
module TodoistOAuth {
  import opened Common
  import opened Store

  const AuthorizeUrl: string := "https://api.todoist.com/oauth/authorize"
  const Scope: string := "data:read"

  /** Ten minutes, in milliseconds. */
  const StateTtlMs: int := 10 * 60 * 1000

  /** The authorize url returned: the provider's endpoint and its query, in
      the order the handler builds it. */
  datatype AuthorizeQuery = AuthorizeQuery(endpoint: string, clientId: string, scope: string, state: string)

  datatype InitOutcome = InitOutcome(db: Db, result: Result<AuthorizeQuery>)

  /** The state document: whose flow it is and when it was opened and lapses. */
  function StateDoc(uid: string, now: int): (d: Doc)
    ensures d.Keys == {"uid", "createdAt", "expiresAt"}
    ensures d["uid"] == Str(uid) && d["createdAt"] == Stamp(now) && d["expiresAt"] == Stamp(now + StateTtlMs)
  {
    map["uid" := Str(uid), "createdAt" := Stamp(now), "expiresAt" := Stamp(now + StateTtlMs)]
  }

  /** `todoistOauthInit`. `state` is the fresh random id and `clientId` the
      configured client id. */
  function OAuthInit(db: Db, caller: Option<Caller>, state: string, clientId: string, now: int): (r: InitOutcome)
    ensures caller.None? ==> r == InitOutcome(db, Err(Unauthenticated))
    ensures caller.Some? ==>
      && r.result == Ok(AuthorizeQuery(AuthorizeUrl, clientId, Scope, state))
      && r.db.Keys == db.Keys + {OAuthStatePath(state)}
      && (forall p :: p in db && p != OAuthStatePath(state) ==> r.db[p] == db[p])
      && r.db[OAuthStatePath(state)] == StateDoc(caller.value.uid, now)
  {
    if caller.None? then InitOutcome(db, Err(Unauthenticated))
    else InitOutcome(Overwrite(db, OAuthStatePath(state), StateDoc(caller.value.uid, now)), Ok(AuthorizeQuery(AuthorizeUrl, clientId, Scope, state)))
  }

  /** Where the callback sends the browser: back to the app with success or
      with a reason. `ServerError` is an uncaught throw. */
  datatype Redirect = Connected | Failed(reason: string) | ServerError

  /** The token endpoint's behaviour: a non-2xx status, a 2xx body with or
      without an `access_token`, or a throw (network failure, unreadable body). */
  datatype ExchangeAnswer = NotOk(status: int) | Body(accessToken: Option<string>) | Unreachable

  /** The form posted to the token endpoint. */
  datatype TokenRequest = TokenRequest(clientId: string, clientSecret: string, code: string, redirectUri: string)

  datatype Secrets = Secrets(clientId: string, clientSecret: string, redirectUri: string)

  /** The store after the callback, where it redirects, and the token request
      made, if any. */
  datatype CallbackOutcome = CallbackOutcome(db: Db, redirect: Redirect, exchanged: Option<TokenRequest>)

  /** The fields merged into the user document on success. */
  function TokenFields(token: string, now: int): (d: Doc)
    ensures d.Keys == {"todoistToken", "todoistConnectedAt"}
    ensures d["todoistToken"] == Str(token) && d["todoistConnectedAt"] == Stamp(now)
  {
    map["todoistToken" := Str(token), "todoistConnectedAt" := Stamp(now)]
  }

  /** `new Date() > expiresAt.toDate()`: the instant of expiry itself still counts. */
  predicate Expired(now: int, expiresAtMs: int)
  {
    now > expiresAtMs
  }

  /** The stored state carries a timestamp expiry that has not passed. */
  predicate Unexpired(record: Doc, now: int)
  {
    "expiresAt" in record && record["expiresAt"].Stamp? && !Expired(now, record["expiresAt"].stampMs)
  }

  /** The state has been consumed: the rest of the callback, from the expiry
      check on. */
  function AfterConsume(db: Db, record: Doc, code: string, secrets: Secrets, answer: ExchangeAnswer, now: int): (r: CallbackOutcome)
    ensures r.redirect == Connected <==>
      && Unexpired(record, now)
      && answer.Body? && Present(answer.accessToken)
      && "uid" in record && record["uid"].Str? && record["uid"].s != ""
    ensures r.redirect == Connected ==>
      r.db == Merge(db, UserPath(record["uid"].s), TokenFields(answer.accessToken.value, now))
    ensures r.redirect != Connected ==> r.db == db
    ensures r.exchanged.Some? <==> Unexpired(record, now)
    ensures r.exchanged.Some? ==> r.exchanged.value == TokenRequest(secrets.clientId, secrets.clientSecret, code, secrets.redirectUri)
    // each way of failing redirects with its own reason
    ensures !("expiresAt" in record && record["expiresAt"].Stamp?) ==> r.redirect == ServerError
    ensures "expiresAt" in record && record["expiresAt"].Stamp? && Expired(now, record["expiresAt"].stampMs) ==>
      r.redirect == Failed("expired")
    ensures Unexpired(record, now) && answer.NotOk? ==> r.redirect == Failed("token_exchange_failed")
    ensures Unexpired(record, now) && answer.Unreachable? ==> r.redirect == Failed("network_error")
    ensures Unexpired(record, now) && answer.Body? && !Present(answer.accessToken) ==> r.redirect == Failed("no_token")
    ensures Unexpired(record, now) && answer.Body? && Present(answer.accessToken)
            && !("uid" in record && record["uid"].Str? && record["uid"].s != "") ==>
      r.redirect == ServerError
  {
    if "expiresAt" !in record || !record["expiresAt"].Stamp? then CallbackOutcome(db, ServerError, None)
    else if Expired(now, record["expiresAt"].stampMs) then CallbackOutcome(db, Failed("expired"), None)
    else
      var request := Some(TokenRequest(secrets.clientId, secrets.clientSecret, code, secrets.redirectUri));
      match answer
      case NotOk(_) => CallbackOutcome(db, Failed("token_exchange_failed"), request)
      case Unreachable => CallbackOutcome(db, Failed("network_error"), request)
      case Body(token) =>
        if !Present(token) then CallbackOutcome(db, Failed("no_token"), request)
        else if "uid" !in record || !record["uid"].Str? || record["uid"].s == "" then CallbackOutcome(db, ServerError, request)
        else CallbackOutcome(Merge(db, UserPath(record["uid"].s), TokenFields(token.value, now)), Connected, request)
  }

  /** `todoistOauthCallback`, given the query parameters `code`, `state` and
      `error`. */
  function OAuthCallback(db: Db, code: Option<string>, state: Option<string>, error: Option<string>,
                         secrets: Secrets, answer: ExchangeAnswer, now: int): (r: CallbackOutcome)
    // a provider-side error is passed through, before anything else
    ensures Present(error) ==> r == CallbackOutcome(db, Failed(error.value), None)
    ensures !Present(error) && (!Present(code) || !Present(state)) ==> r == CallbackOutcome(db, Failed("missing_params"), None)
    ensures !Present(error) && Present(code) && Present(state) && OAuthStatePath(state.value) !in db ==>
      r == CallbackOutcome(db, Failed("invalid_state"), None)
    // a state that is found is consumed, whatever happens next
    ensures !Present(error) && Present(code) && Present(state) && OAuthStatePath(state.value) in db ==>
      OAuthStatePath(state.value) !in r.db
    // the only document ever removed is the state itself
    ensures forall p :: p in db && p !in r.db ==> state.Some? && p == OAuthStatePath(state.value)
    ensures r.redirect == Connected ==>
      && state.Some? && OAuthStatePath(state.value) in db
      && var record := db[OAuthStatePath(state.value)];
         && "uid" in record && record["uid"].Str? && answer.Body? && answer.accessToken.Some?
         && r.db == Merge(Delete(db, OAuthStatePath(state.value)), UserPath(record["uid"].s), TokenFields(answer.accessToken.value, now))
    ensures r.exchanged.Some? ==> Present(code) && r.exchanged.value.code == code.value
    // a failed callback writes nothing: at most the state it found is gone
    ensures r.redirect != Connected ==> r.db == db || (state.Some? && r.db == Delete(db, OAuthStatePath(state.value)))
    // after the state is consumed, each failure keeps its own redirect
    ensures !Present(error) && Present(code) && Present(state) && OAuthStatePath(state.value) in db ==>
      var record := db[OAuthStatePath(state.value)];
      && (Unexpired(record, now) && answer.NotOk? ==> r.redirect == Failed("token_exchange_failed"))
      && (Unexpired(record, now) && answer.Unreachable? ==> r.redirect == Failed("network_error"))
      && (Unexpired(record, now) && answer.Body? && !Present(answer.accessToken) ==> r.redirect == Failed("no_token"))
      && ("expiresAt" in record && record["expiresAt"].Stamp? && Expired(now, record["expiresAt"].stampMs) ==>
            r.redirect == Failed("expired"))
  {
    if Present(error) then CallbackOutcome(db, Failed(error.value), None)
    else if !Present(code) || !Present(state) then CallbackOutcome(db, Failed("missing_params"), None)
    else
      var path := OAuthStatePath(state.value);
      if path !in db then CallbackOutcome(db, Failed("invalid_state"), None)
      else
        var consumed := Delete(db, path);
        var r := AfterConsume(consumed, db[path], code.value, secrets, answer, now);
        assert r.redirect == Connected ==> OAuthStatePath(state.value) !in r.db by {
          if r.redirect == Connected {
            CollectionsAreDisjoint("", state.value, db[path]["uid"].s);
          }
        }
        r
  }

  /** A state works once: replaying a callback whose state was found, with any
      code and any answer, is refused as an invalid state and changes nothing. */
  lemma StateIsSingleUse(db: Db, code: string, state: string, secrets: Secrets, answer: ExchangeAnswer, now: int,
                         code2: string, answer2: ExchangeAnswer, now2: int)
    requires code != "" && code2 != "" && state != "" && OAuthStatePath(state) in db
    ensures var first := OAuthCallback(db, Some(code), Some(state), None, secrets, answer, now);
            OAuthCallback(first.db, Some(code2), Some(state), None, secrets, answer2, now2)
            == CallbackOutcome(first.db, Failed("invalid_state"), None)
  {
  }

  /** The authorize step and the callback fit together: a callback made within
      ten minutes of the authorize step, whose code the provider exchanges for a
      token, stores that token on the caller's user document; one made later is
      refused as expired without a token request. */
  lemma InitThenCallback(db: Db, caller: Caller, state: string, secrets: Secrets, now: int,
                         code: string, token: string, elapsed: int)
    requires caller.uid != "" && state != "" && code != "" && token != "" && elapsed >= 0
    ensures var init := OAuthInit(db, Some(caller), state, secrets.clientId, now);
            var cb := OAuthCallback(init.db, Some(code), Some(state), None, secrets, Body(Some(token)), now + elapsed);
            && (elapsed <= StateTtlMs ==>
                  && cb.redirect == Connected
                  && cb.db[UserPath(caller.uid)]["todoistToken"] == Str(token)
                  && cb.exchanged == Some(TokenRequest(secrets.clientId, secrets.clientSecret, code, secrets.redirectUri)))
            && (elapsed > StateTtlMs ==> cb.redirect == Failed("expired") && cb.exchanged.None?)
  {
    var init := OAuthInit(db, Some(caller), state, secrets.clientId, now);
    var record := init.db[OAuthStatePath(state)];
    assert record["uid"] == Str(caller.uid);
    assert record["expiresAt"] == Stamp(now + StateTtlMs);
  }
}

=== FILE: user_stats.dfy ===
/** The daily ranking job: every user's focus minutes over the past week, a
    descending ranking, a percentile per rank, and the rows written in batches
    of at most 450. */
module UserStats {
  import opened Common
  import opened Store

  /** Seven days, in milliseconds. */
  const WeekMs: int := 7 * 24 * 60 * 60 * 1000

  /** Writes per committed batch, under the store's limit of 500. */
  const BatchSize: nat := 450

  /** A completed session: when it happened and its `minutesCompleted`, if set. */
  datatype SessionEntry = SessionEntry(timestamp: int, minutesCompleted: Option<nat>)

  /** A user document id with the user's sessions. */
  datatype UserSessions = UserSessions(uid: string, sessions: seq<SessionEntry>)

  datatype UserTotal = UserTotal(uid: string, weeklyMinutes: nat)

  /** The row merged into `userStats/{uid}`. */
  datatype StatRow = StatRow(uid: string, percentile: int, weeklyMinutes: nat, rank: nat, totalUsers: nat, lastUpdated: Value)

  /** The query bounds `timestamp >= weekAgo` and `timestamp <= now`, both inclusive. */
  predicate InWindow(timestamp: int, now: int)
  {
    now - WeekMs <= timestamp <= now
  }

  /** `minutesCompleted || 0` */
  function Minutes(e: SessionEntry): nat
  {
    if e.minutesCompleted.Some? then e.minutesCompleted.value else 0
  }

  /** The sum of the minutes of the sessions inside the window. */
  function WeeklyMinutes(sessions: seq<SessionEntry>, now: int): nat
    decreases |sessions|
  {
    if |sessions| == 0 then 0
    else (if InWindow(sessions[0].timestamp, now) then Minutes(sessions[0]) else 0) + WeeklyMinutes(sessions[1..], now)
  }

  /** The weekly total is additive over any split of a user's sessions. */
  lemma {:induction false} WeeklyMinutesAppend(a: seq<SessionEntry>, b: seq<SessionEntry>, now: int)
    ensures WeeklyMinutes(a + b, now) == WeeklyMinutes(a, now) + WeeklyMinutes(b, now)
    decreases |a|
  {
    if |a| == 0 {
      assert a + b == b;
    } else {
      assert (a + b)[0] == a[0];
      assert (a + b)[1..] == a[1..] + b;
      WeeklyMinutesAppend(a[1..], b, now);
    }
  }

  /** Sessions outside the window, however many minutes they carry, add nothing. */
  lemma {:induction false} OutsideWindowIgnored(sessions: seq<SessionEntry>, extra: seq<SessionEntry>, now: int)
    requires forall i :: 0 <= i < |extra| ==> !InWindow(extra[i].timestamp, now)
    ensures WeeklyMinutes(sessions + extra, now) == WeeklyMinutes(sessions, now)
  {
    WeeklyMinutesAppend(sessions, extra, now);
    NoneInWindow(extra, now);
  }

  lemma {:induction false} NoneInWindow(extra: seq<SessionEntry>, now: int)
    requires forall i :: 0 <= i < |extra| ==> !InWindow(extra[i].timestamp, now)
    ensures WeeklyMinutes(extra, now) == 0
    decreases |extra|
  {
    if |extra| > 0 {
      assert forall i :: 0 <= i < |extra[1..]| ==> extra[1..][i] == extra[i + 1];
      NoneInWindow(extra[1..], now);
    }
  }

  /** The per-user totals, in the order the users were listed. */
  function Totals(users: seq<UserSessions>, now: int): (r: seq<UserTotal>)
    ensures |r| == |users|
    ensures forall i :: 0 <= i < |users| ==> r[i] == UserTotal(users[i].uid, WeeklyMinutes(users[i].sessions, now))
  {
    seq(|users|, i requires 0 <= i < |users| => UserTotal(users[i].uid, WeeklyMinutes(users[i].sessions, now)))
  }

  /** Weekly minutes do not increase along the list. */
  predicate Descending(s: seq<UserTotal>)
  {
    forall i, j :: 0 <= i < j < |s| ==> s[i].weeklyMinutes >= s[j].weeklyMinutes
  }

  /** Places `x` after every entry with at least as many minutes. */
  function Insert(x: UserTotal, s: seq<UserTotal>): (r: seq<UserTotal>)
    requires Descending(s)
    ensures Descending(r)
    ensures multiset(r) == multiset(s) + multiset{x}
    ensures |r| == |s| + 1 && (r[0] == x || (|s| > 0 && r[0] == s[0]))
    decreases |s|
  {
    if |s| == 0 then [x]
    else if x.weeklyMinutes > s[0].weeklyMinutes then [x] + s
    else
      var rest := Insert(x, s[1..]);
      assert s == [s[0]] + s[1..];
      assert s[0].weeklyMinutes >= rest[0].weeklyMinutes;
      [s[0]] + rest
  }

  /** `userStats.sort((a, b) => b.weeklyMinutes - a.weeklyMinutes)`: a
      descending permutation of the totals. */
  function SortDescending(s: seq<UserTotal>): (r: seq<UserTotal>)
    ensures Descending(r)
    ensures multiset(r) == multiset(s)
    ensures |r| == |s|
    decreases |s|
  {
    if |s| == 0 then []
    else
      var init := s[..|s| - 1];
      assert s == init + [s[|s| - 1]];
      var r := Insert(s[|s| - 1], SortDescending(init));
      assert |r| == |multiset(r)|;
      r
  }

  /** `Math.round((i / n) * 100)`, computed exactly: `100 i / n + 1/2`, rounded down. */
  function Percentile(i: nat, n: nat): int
    requires i < n
  {
    (200 * i + n) / (2 * n)
  }

  /** The percentile is the whole number nearest to `100 i / n`, halves rounding
      up, and so lies between 0 and 100. */
  lemma PercentileRounds(i: nat, n: nat)
    requires i < n
    ensures 2 * n * Percentile(i, n) <= 200 * i + n < 2 * n * (Percentile(i, n) + 1)
    ensures 0 <= Percentile(i, n) <= 100
  {
    var q, d := 200 * i + n, 2 * n;
    var p := q / d;
    assert q == d * p + q % d && 0 <= q % d < d;
    assert d * (p + 1) == d * p + d;
    assert d * -1 == -d;
    MulCancel(d, -1, p);
    assert d * 101 == 202 * n;
    MulCancel(d, p, 101);
  }

  lemma MulCancel(k: int, x: int, y: int)
    requires k > 0
    ensures k * x < k * y ==> x < y
  {
  }

  /** Two roundings of `100 i / n` and `100 j / n` keep the order of `i` and `j`. */
  lemma RoundedMonotone(n: nat, i: nat, j: nat, pi: int, pj: int)
    requires 0 < n && i <= j
    requires 2 * n * pi <= 200 * i + n && 200 * j + n < 2 * n * (pj + 1)
    ensures pi <= pj
  {
    MulCancel(2 * n, pi, pj + 1);
  }

  /** A later rank never has a smaller percentile. */
  lemma PercentileMonotone(i: nat, j: nat, n: nat)
    requires i <= j < n
    ensures Percentile(i, n) <= Percentile(j, n)
  {
    var pi, pj := Percentile(i, n), Percentile(j, n);
    PercentileRounds(i, n);
    PercentileRounds(j, n);
    RoundedMonotone(n, i, j, pi, pj);
  }

  /** The first rank has percentile 0. */
  lemma PercentileFirstIsZero(n: nat)
    requires 0 < n
    ensures Percentile(0, n) == 0
  {
    PercentileRounds(0, n);
    MulCancel(2 * n, Percentile(0, n), 1);
  }

  /** One row per ranked user: rank `i + 1`, the shared total, and the percentile. */
  function RankRows(sorted: seq<UserTotal>, now: int): (r: seq<StatRow>)
    ensures |r| == |sorted|
    ensures forall i :: 0 <= i < |sorted| ==>
      r[i] == StatRow(sorted[i].uid, Percentile(i, |sorted|), sorted[i].weeklyMinutes, i + 1, |sorted|, Stamp(now))
  {
    seq(|sorted|, i requires 0 <= i < |sorted| =>
      StatRow(sorted[i].uid, Percentile(i, |sorted|), sorted[i].weeklyMinutes, i + 1, |sorted|, Stamp(now)))
  }

  /** The rows of a descending ranking: ranks are exactly 1 to n, every row
      carries n as the total, percentiles lie in [0, 100] and do not decrease
      with rank, and minutes do not increase with rank. */
  lemma RankRowsShape(sorted: seq<UserTotal>, now: int)
    requires Descending(sorted)
    ensures var rows := RankRows(sorted, now);
            && (forall i :: 0 <= i < |rows| ==> 1 <= rows[i].rank <= |sorted|)
            && (forall i, j :: 0 <= i < j < |rows| ==> rows[i].rank < rows[j].rank)
            && (forall i :: 0 <= i < |rows| ==> rows[i].totalUsers == |sorted| && 0 <= rows[i].percentile <= 100)
            && (forall i, j :: 0 <= i <= j < |rows| ==>
                  rows[i].percentile <= rows[j].percentile && rows[i].weeklyMinutes >= rows[j].weeklyMinutes)
            && (|rows| > 0 ==> rows[0].rank == 1 && rows[0].percentile == 0)
  {
    var rows := RankRows(sorted, now);
    if |rows| > 0 {
      PercentileFirstIsZero(|rows|);
    }
    forall i | 0 <= i < |rows| ensures 0 <= rows[i].percentile <= 100 {
      PercentileRounds(i, |rows|);
    }
    forall i, j | 0 <= i <= j < |rows| ensures rows[i].percentile <= rows[j].percentile {
      PercentileMonotone(i, j, |rows|);
    }
  }

  /** The ranking of all users has one row per user, shaped as above. */
  lemma RankingShape(users: seq<UserSessions>, now: int)
    ensures var rows := RankRows(SortDescending(Totals(users, now)), now);
            && |rows| == |users|
            && (forall i :: 0 <= i < |rows| ==> 1 <= rows[i].rank <= |users|)
            && (forall i, j :: 0 <= i < j < |rows| ==> rows[i].rank < rows[j].rank)
            && (forall i :: 0 <= i < |rows| ==> rows[i].totalUsers == |users| && 0 <= rows[i].percentile <= 100)
            && (forall i, j :: 0 <= i <= j < |rows| ==>
                  rows[i].percentile <= rows[j].percentile && rows[i].weeklyMinutes >= rows[j].weeklyMinutes)
            && (|rows| > 0 ==> rows[0].rank == 1 && rows[0].percentile == 0)
  {
    var sorted := SortDescending(Totals(users, now));
    RankRowsShape(sorted, now);
  }

  /** Every ranked row belongs to one listed user and carries that user's weekly total. */
  lemma RowsComeFromUsers(users: seq<UserSessions>, now: int)
    ensures var rows := RankRows(SortDescending(Totals(users, now)), now);
            forall row :: row in rows ==>
              exists i :: 0 <= i < |users| && users[i].uid == row.uid
                          && row.weeklyMinutes == WeeklyMinutes(users[i].sessions, now)
  {
    var totals := Totals(users, now);
    var sorted := SortDescending(totals);
    var rows := RankRows(sorted, now);
    forall row | row in rows
      ensures exists i :: 0 <= i < |users| && users[i].uid == row.uid
                          && row.weeklyMinutes == WeeklyMinutes(users[i].sessions, now)
    {
      var k :| 0 <= k < |rows| && rows[k] == row;
      assert sorted[k] in multiset(totals);
      var i :| 0 <= i < |totals| && totals[i] == sorted[k];
      assert users[i].uid == row.uid;
    }
  }

  /** The concatenation of the batches, in commit order. */
  function Flatten(batches: seq<seq<StatRow>>): seq<StatRow>
  {
    if |batches| == 0 then [] else Flatten(batches[..|batches| - 1]) + batches[|batches| - 1]
  }

  /** The write loop: rows go into the open batch, which is committed when it
      reaches the batch size; a non-empty remainder is committed at the end. */
  method CommitBatches(rows: seq<StatRow>) returns (batches: seq<seq<StatRow>>)
    ensures Flatten(batches) == rows
    ensures forall k :: 0 <= k < |batches| ==> 1 <= |batches[k]| <= BatchSize
    ensures forall k :: 0 <= k < |batches| - 1 ==> |batches[k]| == BatchSize
    ensures rows == [] <==> batches == []
  {
    batches := [];
    var batch: seq<StatRow> := [];
    var i := 0;
    while i < |rows|
      invariant 0 <= i <= |rows|
      invariant Flatten(batches) + batch == rows[..i]
      invariant |batch| < BatchSize
      invariant forall k :: 0 <= k < |batches| ==> |batches[k]| == BatchSize
      invariant batches == [] && batch == [] ==> i == 0
    {
      batch := batch + [rows[i]];
      assert rows[..i + 1] == rows[..i] + [rows[i]];
      i := i + 1;
      if |batch| >= BatchSize {
        assert Flatten(batches + [batch]) == Flatten(batches) + batch by {
          assert (batches + [batch])[..|batches|] == batches;
        }
        batches := batches + [batch];
        batch := [];
      }
    }
    assert rows[..i] == rows;
    if |batch| > 0 {
      assert Flatten(batches + [batch]) == Flatten(batches) + batch by {
        assert (batches + [batch])[..|batches|] == batches;
      }
      batches := batches + [batch];
    }
  }

  /** `aggregateUserStats` run at `now`: the batches of rows committed. */
  method AggregateUserStats(users: seq<UserSessions>, now: int) returns (batches: seq<seq<StatRow>>)
    ensures Flatten(batches) == RankRows(SortDescending(Totals(users, now)), now)
    ensures |Flatten(batches)| == |users|
    ensures forall k :: 0 <= k < |batches| ==> 1 <= |batches[k]| <= BatchSize
    ensures users == [] <==> batches == []
  {
    var rows := RankRows(SortDescending(Totals(users, now)), now);
    batches := CommitBatches(rows);
  }
}

=== FILE: verify_subscription.dfy ===
/** Subscription verification with self-healing: the stored status record
    answers when it exists; otherwise the gateway is searched by the caller's
    email (customer, then its most recent subscription, then its recent
    checkout sessions for a paid one-time purchase) and what is found is
    written back to the store. */
module Verification {
  import opened Common
  import opened Store
  import opened Billing
  import opened StripeHelpers
  import opened Access

  /** The store after the call, the decision (or the error thrown) and the
      gateway requests made, in order. */
  datatype VerifyOutcome = VerifyOutcome(db: Db, result: Result<Decision>, calls: seq<Call>)

  /** `s.mode === 'payment' && s.payment_status === 'paid'` */
  predicate PaidOneTime(s: CheckoutSession)
  {
    s.mode == "payment" && s.paymentStatus == "paid"
  }

  /** `sessions.find(PaidOneTime)`, as the index of the session found. */
  function FindPaidOneTime(sessions: seq<CheckoutSession>): (r: Option<nat>)
    ensures r.None? <==> forall j :: 0 <= j < |sessions| ==> !PaidOneTime(sessions[j])
    ensures r.Some? ==> r.value < |sessions| && PaidOneTime(sessions[r.value])
    ensures r.Some? ==> forall j :: 0 <= j < r.value ==> !PaidOneTime(sessions[j])
  {
    if |sessions| == 0 then None
    else if PaidOneTime(sessions[0]) then Some(0)
    else
      match FindPaidOneTime(sessions[1..])
      case None => None
      case Some(i) => Some(i + 1)
  }

  /** The decision returned after a lifetime purchase has been found. */
  const LifetimeAccess: Decision := Decision(true, Some(Str("lifetime")), Some(Lifetime), false, Null, Bool(false))

  /** The decision derived from a subscription found at the gateway, given the
      record backfilled for it. */
  function SubscriptionDecision(sub: Subscription, record: Doc): (d: Decision)
    requires GetTier(record).Ok?
    ensures d.hasAccess <==> IsPremium(sub.status)
    ensures d.gracePeriod <==> sub.status == "past_due"
    ensures d.status == Some(Str(sub.status)) && d.tier == GetTier(record).value
  {
    Decision(IsPremium(sub.status), Some(Str(sub.status)), GetTier(record).value,
             sub.status == "past_due", Int(sub.currentPeriodEnd), Bool(sub.cancelAtPeriodEnd))
  }

  /** Reading `record` back through the cached path gives the same access,
      status, tier and grace period as `result`. */
  predicate ReadsBackAs(record: Doc, result: Result<Decision>)
  {
    && result.Ok? && Evaluate(record).Ok?
    && Evaluate(record).value.hasAccess == result.value.hasAccess
    && Evaluate(record).value.status == result.value.status
    && Evaluate(record).value.tier == result.value.tier
    && Evaluate(record).value.gracePeriod == result.value.gracePeriod
  }

  /** Backfilling from the customer's first listed subscription (lines 53-77):
      the write and the decision it answers with. */
  function BackfillSubscription(db: Db, uid: string, customer: Customer, sub: Subscription,
                                writable: bool, now: int): (r: (Db, Result<Decision>))
    requires StatusPath(uid) !in db
    ensures r.1.Ok?
    ensures r.1 == Ok(NoAccess) ==> r.0 == db
    // a failed write answers none; a successful one always changes the store
    ensures r.0 == db <==> !writable
    ensures !writable ==> r.1 == Ok(NoAccess)
    ensures r.0 != db ==> StatusPath(uid) in r.0 && r.0 == db[StatusPath(uid) := r.0[StatusPath(uid)]]
                          && ReadsBackAs(r.0[StatusPath(uid)], r.1)
  {
    var record := SubscriptionRecord(sub.id, sub, Str(customer.id), now);
    if !writable then (db, Ok(NoAccess))
    else
      EvaluateSubscriptionRecord(sub, Str(customer.id), now);
      MergeOnFreshPathIsOverwrite(db, StatusPath(uid), record);
      var written := Merge(db, StatusPath(uid), record);
      assert written[StatusPath(uid)] == record;
      (written, Ok(SubscriptionDecision(sub, record)))
  }

  /** Backfilling a lifetime purchase from a paid one-time session (lines 84-94). */
  function BackfillLifetime(db: Db, uid: string, customer: Customer, session: CheckoutSession,
                            writable: bool, now: int): (r: (Db, Result<Decision>))
    requires StatusPath(uid) !in db
    ensures r.1.Ok?
    ensures r.1 == Ok(NoAccess) ==> r.0 == db
    // a failed write answers none; a successful one always changes the store
    ensures r.0 == db <==> !writable
    ensures !writable ==> r.1 == Ok(NoAccess)
    ensures r.0 != db ==> StatusPath(uid) in r.0 && r.0 == db[StatusPath(uid) := r.0[StatusPath(uid)]]
                          && ReadsBackAs(r.0[StatusPath(uid)], r.1)
  {
    var record := LifetimeRecord(OrNull(session.paymentIntent), Str(customer.id), now);
    if !writable then (db, Ok(NoAccess))
    else
      EvaluateLifetimeRecord(OrNull(session.paymentIntent), Str(customer.id), now);
      MergeOnFreshPathIsOverwrite(db, StatusPath(uid), record);
      var written := Merge(db, StatusPath(uid), record);
      assert written[StatusPath(uid)] == record;
      (written, Ok(LifetimeAccess))
  }

  /** The customer search by `email` finds nothing (or cannot be made). */
  predicate NoCustomer(gw: Gateway, email: string)
  {
    email !in gw.customersByEmail || |gw.customersByEmail[email]| == 0
  }

  /** The gateway search of a store miss. Every failure is caught and answers
      `NoAccess`; `writable` says whether the backfill write succeeds. */
  function SelfHeal(db: Db, gw: Gateway, uid: string, email: string, writable: bool, now: int): (r: VerifyOutcome)
    requires StatusPath(uid) !in db
    ensures r.result.Ok?
    ensures r.result == Ok(NoAccess) ==> r.db == db
    ensures r.db != db ==>
      && StatusPath(uid) in r.db
      && r.db == db[StatusPath(uid) := r.db[StatusPath(uid)]]
      && ReadsBackAs(r.db[StatusPath(uid)], r.result)
    // fails closed: whenever nothing is written the answer is none
    ensures r.db == db ==> r.result == Ok(NoAccess)
    // a failed backfill write leaves the store alone
    ensures !writable ==> r.db == db
    // an unconfigured gateway makes no request
    ensures !gw.configured ==> r == VerifyOutcome(db, Ok(NoAccess), [])
    // no customer for the email, or a failed customer search
    ensures gw.configured && NoCustomer(gw, email) ==> r == VerifyOutcome(db, Ok(NoAccess), [ListCustomers(email)])
    // a failed subscription search for the customer found
    ensures gw.configured && !NoCustomer(gw, email)
            && gw.customersByEmail[email][0].id !in gw.subscriptionsByCustomer ==>
      r == VerifyOutcome(db, Ok(NoAccess), [ListCustomers(email), ListSubscriptions(gw.customersByEmail[email][0].id)])
    // no subscription, and a failed session search
    ensures gw.configured && !NoCustomer(gw, email)
            && gw.customersByEmail[email][0].id in gw.subscriptionsByCustomer
            && |gw.subscriptionsByCustomer[gw.customersByEmail[email][0].id]| == 0
            && gw.customersByEmail[email][0].id !in gw.sessionsByCustomer ==>
      var cid := gw.customersByEmail[email][0].id;
      r == VerifyOutcome(db, Ok(NoAccess), [ListCustomers(email), ListSubscriptions(cid), ListSessions(cid)])
    // anything written was found for a customer of that email
    ensures r.db != db ==> writable && gw.configured && !NoCustomer(gw, email)
    ensures |r.calls| <= 3
  {
    if !gw.configured then VerifyOutcome(db, Ok(NoAccess), [])
    else
      var c1 := [ListCustomers(email)];
      if email !in gw.customersByEmail then VerifyOutcome(db, Ok(NoAccess), c1)
      else
        var customers := Take(gw.customersByEmail[email], 1);
        if |customers| == 0 then VerifyOutcome(db, Ok(NoAccess), c1)
        else
          var customer := customers[0];
          var c2 := c1 + [ListSubscriptions(customer.id)];
          if customer.id !in gw.subscriptionsByCustomer then VerifyOutcome(db, Ok(NoAccess), c2)
          else
            var subs := Take(gw.subscriptionsByCustomer[customer.id], 1);
            if |subs| > 0 then
              var (db', result) := BackfillSubscription(db, uid, customer, subs[0], writable, now);
              VerifyOutcome(db', result, c2)
            else
              var c3 := c2 + [ListSessions(customer.id)];
              if customer.id !in gw.sessionsByCustomer then VerifyOutcome(db, Ok(NoAccess), c3)
              else
                var sessions := Take(gw.sessionsByCustomer[customer.id], 5);
                match FindPaidOneTime(sessions)
                case None => VerifyOutcome(db, Ok(NoAccess), c3)
                case Some(i) =>
                  var (db', result) := BackfillLifetime(db, uid, customer, sessions[i], writable, now);
                  VerifyOutcome(db', result, c3)
  }

  /** `verifySubscription` */
  function VerifySubscription(db: Db, gw: Gateway, caller: Option<Caller>, writable: bool, now: int): (r: VerifyOutcome)
    ensures caller.None? ==> r == VerifyOutcome(db, Err(Unauthenticated), [])
    // cached path: the stored record alone decides, with no gateway request and no write
    ensures caller.Some? && StatusPath(caller.value.uid) in db ==>
      r == VerifyOutcome(db, Evaluate(db[StatusPath(caller.value.uid)]), [])
    // self-heal path: never throws, and answers NoAccess without writing when nothing is found
    ensures caller.Some? && StatusPath(caller.value.uid) !in db ==> r.result.Ok?
    ensures caller.Some? && StatusPath(caller.value.uid) !in db && !Present(caller.value.email) ==>
      r == VerifyOutcome(db, Ok(NoAccess), [])
    ensures caller.Some? && StatusPath(caller.value.uid) !in db && r.result == Ok(NoAccess) ==> r.db == db
    // fails closed: a store miss that writes nothing answers none
    ensures caller.Some? && StatusPath(caller.value.uid) !in db && r.db == db ==> r.result == Ok(NoAccess)
    ensures caller.Some? && StatusPath(caller.value.uid) !in db && Present(caller.value.email) && !gw.configured ==>
      r == VerifyOutcome(db, Ok(NoAccess), [])
    ensures caller.Some? && StatusPath(caller.value.uid) !in db && Present(caller.value.email) && gw.configured
            && NoCustomer(gw, caller.value.email.value) ==>
      r == VerifyOutcome(db, Ok(NoAccess), [ListCustomers(caller.value.email.value)])
    // a failed backfill write changes nothing
    ensures !writable ==> r.db == db
    // the only write is the caller's own missing status record
    ensures r.db != db ==>
      && caller.Some? && StatusPath(caller.value.uid) !in db
      && r.db.Keys == db.Keys + {StatusPath(caller.value.uid)}
      && (forall p :: p in db ==> r.db[p] == db[p])
      && r.result.Ok? && r.result.value.status.Some?
      && (r.result.value.hasAccess <==> StatusIsPremium(Field(r.db[StatusPath(caller.value.uid)], "status")))
    ensures |r.calls| <= 3
  {
    if caller.None? then VerifyOutcome(db, Err(Unauthenticated), [])
    else
      var uid := caller.value.uid;
      if StatusPath(uid) in db then VerifyOutcome(db, Evaluate(db[StatusPath(uid)]), [])
      else if !Present(caller.value.email) then VerifyOutcome(db, Ok(NoAccess), [])
      else SelfHeal(db, gw, uid, caller.value.email.value, writable, now)
  }

  /** With a customer whose first listed subscription is `sub` (whatever its
      status), the record is backfilled from `sub` with the customer's id, and
      access follows `sub`'s status. */
  lemma SelfHealFromSubscription(db: Db, gw: Gateway, caller: Caller, now: int)
    requires StatusPath(caller.uid) !in db && Present(caller.email) && gw.configured
    requires caller.email.value in gw.customersByEmail && |gw.customersByEmail[caller.email.value]| > 0
    requires gw.customersByEmail[caller.email.value][0].id in gw.subscriptionsByCustomer
    requires |gw.subscriptionsByCustomer[gw.customersByEmail[caller.email.value][0].id]| > 0
    ensures var customer := gw.customersByEmail[caller.email.value][0];
            var sub := gw.subscriptionsByCustomer[customer.id][0];
            var r := VerifySubscription(db, gw, Some(caller), true, now);
            && r.db == Merge(db, StatusPath(caller.uid), SubscriptionRecord(sub.id, sub, Str(customer.id), now))
            && r.db[StatusPath(caller.uid)]["customerId"] == Str(customer.id)
            && r.result.Ok?
            && (r.result.value.hasAccess <==> IsPremium(sub.status))
            && (r.result.value.gracePeriod <==> sub.status == "past_due")
            && r.calls == [ListCustomers(caller.email.value), ListSubscriptions(customer.id)]
  {
    var customer := gw.customersByEmail[caller.email.value][0];
    var sub := gw.subscriptionsByCustomer[customer.id][0];
    var record := SubscriptionRecord(sub.id, sub, Str(customer.id), now);
    SelfHealTakesFirstSubscription(db, gw, caller.uid, caller.email.value, now);
    assert VerifySubscription(db, gw, Some(caller), true, now) == SelfHeal(db, gw, caller.uid, caller.email.value, true, now);
    MergeOnFreshPathIsOverwrite(db, StatusPath(caller.uid), record);
  }

  /** The search step behind `SelfHealFromSubscription`. */
  lemma SelfHealTakesFirstSubscription(db: Db, gw: Gateway, uid: string, email: string, now: int)
    requires StatusPath(uid) !in db && gw.configured
    requires email in gw.customersByEmail && |gw.customersByEmail[email]| > 0
    requires gw.customersByEmail[email][0].id in gw.subscriptionsByCustomer
    requires |gw.subscriptionsByCustomer[gw.customersByEmail[email][0].id]| > 0
    ensures var customer := gw.customersByEmail[email][0];
            var sub := gw.subscriptionsByCustomer[customer.id][0];
            var record := SubscriptionRecord(sub.id, sub, Str(customer.id), now);
            SelfHeal(db, gw, uid, email, true, now)
              == VerifyOutcome(Merge(db, StatusPath(uid), record), Ok(SubscriptionDecision(sub, record)),
                               [ListCustomers(email), ListSubscriptions(customer.id)])
  {
    var customer := gw.customersByEmail[email][0];
    var sub := gw.subscriptionsByCustomer[customer.id][0];
    assert Take(gw.customersByEmail[email], 1)[0] == customer;
    assert Take(gw.subscriptionsByCustomer[customer.id], 1)[0] == sub;
  }

  /** With a customer but no subscription, a lifetime record is backfilled
      exactly when one of the first five listed sessions is a paid one-time
      payment, and then from the first such session. */
  lemma SelfHealLifetime(db: Db, gw: Gateway, caller: Caller, now: int)
    requires StatusPath(caller.uid) !in db && Present(caller.email) && gw.configured
    requires caller.email.value in gw.customersByEmail && |gw.customersByEmail[caller.email.value]| > 0
    requires gw.customersByEmail[caller.email.value][0].id in gw.subscriptionsByCustomer
    requires |gw.subscriptionsByCustomer[gw.customersByEmail[caller.email.value][0].id]| == 0
    requires gw.customersByEmail[caller.email.value][0].id in gw.sessionsByCustomer
    ensures var customer := gw.customersByEmail[caller.email.value][0];
            var sessions := Take(gw.sessionsByCustomer[customer.id], 5);
            var r := VerifySubscription(db, gw, Some(caller), true, now);
            && (r.result == Ok(LifetimeAccess) <==> exists i :: 0 <= i < |sessions| && PaidOneTime(sessions[i]))
            && (r.result != Ok(LifetimeAccess) ==> r.result == Ok(NoAccess) && r.db == db)
            && (r.result == Ok(LifetimeAccess) ==>
                  exists i :: 0 <= i < |sessions| && PaidOneTime(sessions[i])
                    && (forall j :: 0 <= j < i ==> !PaidOneTime(sessions[j]))
                    && r.db == Merge(db, StatusPath(caller.uid),
                                     LifetimeRecord(OrNull(sessions[i].paymentIntent), Str(customer.id), now)))
  {
    var customer := gw.customersByEmail[caller.email.value][0];
    var sessions := Take(gw.sessionsByCustomer[customer.id], 5);
    match FindPaidOneTime(sessions)
    case None =>
    case Some(i) =>
      assert PaidOneTime(sessions[i]);
  }

  /** Reading back a backfilled subscription record gives the decision the
      backfill returned, up to the period-end fields. */
  lemma EvaluateSubscriptionRecord(sub: Subscription, customer: Value, now: int)
    ensures var record := SubscriptionRecord(sub.id, sub, customer, now);
            var d := SubscriptionDecision(sub, record);
            && Evaluate(record).Ok?
            && Evaluate(record).value.hasAccess == d.hasAccess
            && Evaluate(record).value.status == d.status
            && Evaluate(record).value.tier == d.tier
            && Evaluate(record).value.gracePeriod == d.gracePeriod
  {
    var record := SubscriptionRecord(sub.id, sub, customer, now);
    assert Field(record, "status") == Some(Str(sub.status));
  }

  /** Reading back a backfilled lifetime record gives exactly the lifetime decision. */
  lemma EvaluateLifetimeRecord(paymentIntent: Value, customer: Value, now: int)
    ensures Evaluate(LifetimeRecord(paymentIntent, customer, now)) == Ok(LifetimeAccess)
  {
    var record := LifetimeRecord(paymentIntent, customer, now);
    assert Field(record, "status") == Some(Str("lifetime"));
    assert !FieldTruthy(record, "currentPeriodEnd") && !FieldTruthy(record, "cancelAtPeriodEnd");
    PremiumStatusesExact();
  }

  /** Self-healing converges: after a call that backfilled the record, a second
      call (against any gateway) takes the cached path, makes no gateway
      request, writes nothing, and gives the same access, status, tier and grace. */
  lemma SelfHealConverges(db: Db, gw: Gateway, caller: Caller, writable: bool, now: int,
                          gw2: Gateway, writable2: bool, now2: int)
    requires VerifySubscription(db, gw, Some(caller), writable, now).db != db
    ensures var first := VerifySubscription(db, gw, Some(caller), writable, now);
            var second := VerifySubscription(first.db, gw2, Some(caller), writable2, now2);
            && second.calls == [] && second.db == first.db
            && second.result.Ok?
            && second.result.value.hasAccess == first.result.value.hasAccess
            && second.result.value.status == first.result.value.status
            && second.result.value.tier == first.result.value.tier
            && second.result.value.gracePeriod == first.result.value.gracePeriod
  {
    var first := VerifySubscription(db, gw, Some(caller), writable, now);
    assert ReadsBackAs(first.db[StatusPath(caller.uid)], first.result);
  }
}

=== FILE: webhooks.dfy ===
/** The payment-gateway webhook: a request gate (method, signature header,
    configured secret, signature check), the event ledger that admits each event
    id once, the acknowledgement, and then the per-event-type merge write into
    `users/{uid}/subscription`. */
module Webhooks {
  import opened Common
  import opened Store
  import opened Billing

  /** The event payload, one variant per event type the handler dispatches on. */
  datatype EventData =
    | CheckoutCompleted(session: CheckoutSession)
    | SubscriptionUpdated(subscription: Subscription)
    | SubscriptionDeleted(subscription: Subscription)
    | PaymentFailed(invoice: Invoice)
    | Unhandled(typeName: string)

  datatype Event = Event(id: string, data: EventData)

  /** The four event types the handler acts on. */
  const HandledTypes: set<string> :=
    {"checkout.session.completed", "customer.subscription.updated",
     "customer.subscription.deleted", "invoice.payment_failed"}

  /** A payload is well formed when an `Unhandled` one does not carry the name
      of a type the handler acts on. */
  predicate WellFormedData(d: EventData)
  {
    d.Unhandled? ==> d.typeName !in HandledTypes
  }

  /** `event.type` */
  function TypeName(d: EventData): string
  {
    match d
    case CheckoutCompleted(_) => "checkout.session.completed"
    case SubscriptionUpdated(_) => "customer.subscription.updated"
    case SubscriptionDeleted(_) => "customer.subscription.deleted"
    case PaymentFailed(_) => "invoice.payment_failed"
    case Unhandled(t) => t
  }

  /** For a well-formed payload, `event.type` alone picks the branch the
      handler's `switch` takes. */
  lemma TypeNameSelectsBranch(d: EventData)
    requires WellFormedData(d)
    ensures d.Unhandled? <==> TypeName(d) !in HandledTypes
    ensures TypeName(d) == "checkout.session.completed" <==> d.CheckoutCompleted?
    ensures TypeName(d) == "customer.subscription.updated" <==> d.SubscriptionUpdated?
    ensures TypeName(d) == "customer.subscription.deleted" <==> d.SubscriptionDeleted?
    ensures TypeName(d) == "invoice.payment_failed" <==> d.PaymentFailed?
  {
  }

  /** What processing one event does to the store: it throws, it writes
      nothing, or it merges `fields` into the record of user `uid`. */
  datatype Effect = Threw | NoWrite | MergeInto(uid: string, fields: Doc)

  /** The fields a `customer.subscription.updated` event merges. */
  const UpdatedKeys: set<string> := {"status", "priceId", "currentPeriodEnd", "cancelAtPeriodEnd", "updatedAt"}

  /** The per-type decision of `processWebhookEvent`. */
  function EffectOf(event: Event, gw: Gateway, now: int): (e: Effect)
    // checkout.session.completed
    ensures event.data.CheckoutCompleted? ==>
      var s := event.data.session;
      && (!Present(s.clientReferenceId) || s.mode !in {"subscription", "payment"} ==> e == NoWrite)
      && (Present(s.clientReferenceId) && s.mode == "payment" ==>
            e == MergeInto(s.clientReferenceId.value, LifetimeRecord(OrNull(s.paymentIntent), OrNull(s.customer), now)))
      && (Present(s.clientReferenceId) && s.mode == "subscription" ==>
            if Retrieve(gw, s.subscription).None? then e == Threw
            else e == MergeInto(s.clientReferenceId.value,
                                SubscriptionRecord(s.subscription.value, Retrieve(gw, s.subscription).value, OrNull(s.customer), now)))
    // customer.subscription.updated
    ensures event.data.SubscriptionUpdated? ==>
      var sub := event.data.subscription;
      && (!Present(sub.firebaseUid) ==> e == NoWrite)
      && (Present(sub.firebaseUid) ==>
            && e.MergeInto? && e.uid == sub.firebaseUid.value && e.fields.Keys == UpdatedKeys
            && e.fields["status"] == Str(sub.status) && e.fields["priceId"] == PriceIdOf(sub)
            && e.fields["currentPeriodEnd"] == Int(sub.currentPeriodEnd)
            && e.fields["cancelAtPeriodEnd"] == Bool(sub.cancelAtPeriodEnd)
            && e.fields["updatedAt"] == Iso(now))
    // customer.subscription.deleted
    ensures event.data.SubscriptionDeleted? ==>
      var sub := event.data.subscription;
      && (!Present(sub.firebaseUid) ==> e == NoWrite)
      && (Present(sub.firebaseUid) ==>
            e == MergeInto(sub.firebaseUid.value,
                           map["status" := Str("canceled"), "canceledAt" := Iso(now), "updatedAt" := Iso(now)]))
    // invoice.payment_failed
    ensures event.data.PaymentFailed? ==>
      var inv := event.data.invoice;
      && (!Present(inv.subscription) ==> e == NoWrite)
      && (Present(inv.subscription) && Retrieve(gw, inv.subscription).None? ==> e == Threw)
      && (Present(inv.subscription) && Retrieve(gw, inv.subscription).Some? ==>
            var sub := Retrieve(gw, inv.subscription).value;
            && (!Present(sub.firebaseUid) ==> e == NoWrite)
            && (Present(sub.firebaseUid) ==>
                  e == MergeInto(sub.firebaseUid.value,
                                 map["status" := Str(sub.status), "lastPaymentError" := Iso(now), "updatedAt" := Iso(now)])))
    ensures event.data.Unhandled? ==> e == NoWrite
  {
    match event.data
    case CheckoutCompleted(s) =>
      if !Present(s.clientReferenceId) then NoWrite
      else if s.mode == "subscription" then
        (match Retrieve(gw, s.subscription)
         case None => Threw
         case Some(sub) =>
           MergeInto(s.clientReferenceId.value, SubscriptionRecord(s.subscription.value, sub, OrNull(s.customer), now)))
      else if s.mode == "payment" then
        MergeInto(s.clientReferenceId.value, LifetimeRecord(OrNull(s.paymentIntent), OrNull(s.customer), now))
      else NoWrite
    case SubscriptionUpdated(sub) =>
      if !Present(sub.firebaseUid) then NoWrite
      else
        MergeInto(sub.firebaseUid.value, map[
          "status" := Str(sub.status),
          "priceId" := PriceIdOf(sub),
          "currentPeriodEnd" := Int(sub.currentPeriodEnd),
          "cancelAtPeriodEnd" := Bool(sub.cancelAtPeriodEnd),
          "updatedAt" := Iso(now)])
    case SubscriptionDeleted(sub) =>
      if !Present(sub.firebaseUid) then NoWrite
      else MergeInto(sub.firebaseUid.value, map["status" := Str("canceled"), "canceledAt" := Iso(now), "updatedAt" := Iso(now)])
    case PaymentFailed(inv) =>
      if !Present(inv.subscription) then NoWrite
      else
        (match Retrieve(gw, inv.subscription)
         case None => Threw
         case Some(sub) =>
           if !Present(sub.firebaseUid) then NoWrite
           else MergeInto(sub.firebaseUid.value, map["status" := Str(sub.status), "lastPaymentError" := Iso(now), "updatedAt" := Iso(now)]))
    case Unhandled(_) => NoWrite
  }

  /** `processWebhookEvent(event)`: `None` when it throws, otherwise the store
      after its one merge write (or the unchanged store). */
  function ProcessEvent(db: Db, gw: Gateway, event: Event, now: int): (r: Option<Db>)
    ensures r.None? <==> EffectOf(event, gw, now).Threw?
    ensures r.Some? ==> db.Keys <= r.value.Keys
    ensures EffectOf(event, gw, now).NoWrite? ==> r == Some(db)
    ensures EffectOf(event, gw, now).MergeInto? ==>
      var e := EffectOf(event, gw, now);
      r == Some(Merge(db, WebhookRecordPath(e.uid), e.fields))
  {
    match EffectOf(event, gw, now)
    case Threw => None
    case NoWrite => Some(db)
    case MergeInto(uid, fields) => Some(Merge(db, WebhookRecordPath(uid), fields))
  }

  datatype WebhookRequest = WebhookRequest(httpMethod: string, signature: Option<string>)

  datatype HttpResponse = HttpResponse(status: int, body: string)

  /** The store after the delivery, the response, and the gateway requests made
      while processing. */
  datatype WebhookOutcome = WebhookOutcome(db: Db, response: HttpResponse, calls: seq<Call>)

  /** The gateway requests `processWebhookEvent` makes: one subscription
      retrieve for a recurring checkout of a known user and for a failed
      payment of a subscription invoice, none otherwise. */
  function RequestsOf(event: Event): (calls: seq<Call>)
    ensures |calls| <= 1
    ensures calls != [] ==> event.data.CheckoutCompleted? || event.data.PaymentFailed?
    ensures calls != [] ==> calls[0].RetrieveSubscription?
  {
    match event.data
    case CheckoutCompleted(s) =>
      if Present(s.clientReferenceId) && s.mode == "subscription" && s.subscription.Some?
      then [RetrieveSubscription(s.subscription.value)] else []
    case PaymentFailed(inv) =>
      if Present(inv.subscription) then [RetrieveSubscription(inv.subscription.value)] else []
    case _ => []
  }

  /** The ledger entry written for a newly admitted event. */
  function LedgerEntry(event: Event, now: int): Doc
  {
    map["processed" := Bool(true), "type" := Str(TypeName(event.data)), "createdAt" := Iso(now)]
  }

  /** `stripeWebhook`. `secret` is `STRIPE_WEBHOOK_SECRET`; `verified` is the
      signature check's verdict on the raw body, the header and the secret:
      the event it constructs, or `None` when it throws. */
  function HandleWebhook(db: Db, gw: Gateway, req: WebhookRequest, secret: Option<string>,
                         verified: Option<Event>, now: int): (r: WebhookOutcome)
    ensures req.httpMethod != "POST" ==> r == WebhookOutcome(db, HttpResponse(405, "Method Not Allowed"), [])
    ensures req.httpMethod == "POST" && !Present(req.signature) ==>
      r == WebhookOutcome(db, HttpResponse(400, "Missing stripe-signature header"), [])
    ensures req.httpMethod == "POST" && Present(req.signature) && !Present(secret) ==>
      r == WebhookOutcome(db, HttpResponse(500, "Webhook secret not configured"), [])
    ensures req.httpMethod == "POST" && Present(req.signature) && Present(secret) && (!gw.configured || verified.None?) ==>
      r == WebhookOutcome(db, HttpResponse(400, "Invalid signature"), [])
    ensures r.db != db ==> req.httpMethod == "POST" && Present(req.signature) && Present(secret) && gw.configured && verified.Some?
    // a known event id is acknowledged without processing: no write and no gateway request
    ensures req.httpMethod == "POST" && Present(req.signature) && Present(secret) && gw.configured
            && verified.Some? && EventPath(verified.value.id) in db ==>
      r == WebhookOutcome(db, HttpResponse(200, "Already processed"), [])
    ensures verified.Some? && EventPath(verified.value.id) in db ==> r.db == db && r.calls == []
    ensures r.response == HttpResponse(200, "Already processed") ==>
      verified.Some? && EventPath(verified.value.id) in db && r.db == db
    ensures r.response == HttpResponse(200, "Webhook received") <==>
      && req.httpMethod == "POST" && Present(req.signature) && Present(secret) && gw.configured
      && verified.Some? && EventPath(verified.value.id) !in db
    // only a newly admitted event reaches the gateway
    ensures r.calls != [] ==> r.response == HttpResponse(200, "Webhook received")
    ensures r.response == HttpResponse(200, "Webhook received") ==>
      var event := verified.value;
      var admitted := Overwrite(db, EventPath(event.id), LedgerEntry(event, now));
      && EventPath(event.id) in r.db && r.db[EventPath(event.id)] == LedgerEntry(event, now)
      && r.db == (match ProcessEvent(admitted, gw, event, now) case Some(d) => d case None => admitted)
      && r.calls == RequestsOf(event)
  {
    if req.httpMethod != "POST" then WebhookOutcome(db, HttpResponse(405, "Method Not Allowed"), [])
    else if !Present(req.signature) then WebhookOutcome(db, HttpResponse(400, "Missing stripe-signature header"), [])
    else if !Present(secret) then WebhookOutcome(db, HttpResponse(500, "Webhook secret not configured"), [])
    else if !gw.configured || verified.None? then WebhookOutcome(db, HttpResponse(400, "Invalid signature"), [])
    else
      var event := verified.value;
      if EventPath(event.id) in db then WebhookOutcome(db, HttpResponse(200, "Already processed"), [])
      else
        var admitted := Overwrite(db, EventPath(event.id), LedgerEntry(event, now));
        var processed := ProcessEvent(admitted, gw, event, now);
        var final := match processed case Some(d) => d case None => admitted;
        LedgerEntrySurvives(admitted, gw, event, now);
        WebhookOutcome(final, HttpResponse(200, "Webhook received"), RequestsOf(event))
  }

  /** Processing never overwrites the ledger entry of the event being processed:
      it only writes user records. */
  lemma LedgerEntrySurvives(db: Db, gw: Gateway, event: Event, now: int)
    requires EventPath(event.id) in db
    ensures ProcessEvent(db, gw, event, now).Some? ==>
      ProcessEvent(db, gw, event, now).value[EventPath(event.id)] == db[EventPath(event.id)]
  {
    var e := EffectOf(event, gw, now);
    if e.MergeInto? {
      CollectionsAreDisjoint(event.id, "", e.uid);
    }
  }

  /** Processing an event twice, with the gateway and the clock fixed, leaves the
      store as processing it once does. */
  lemma ProcessEventIdempotent(db: Db, gw: Gateway, event: Event, now: int)
    requires ProcessEvent(db, gw, event, now).Some?
    ensures ProcessEvent(ProcessEvent(db, gw, event, now).value, gw, event, now) == ProcessEvent(db, gw, event, now)
  {
    var e := EffectOf(event, gw, now);
    if e.MergeInto? {
      MergeIdempotent(db, WebhookRecordPath(e.uid), e.fields);
    }
  }

  /** Redelivering an event that was admitted is acknowledged as already
      processed, changes nothing and makes no gateway request: the reconciler's
      effects and its gateway requests happen at most once. */
  lemma RedeliveryIsNoOp(db: Db, gw: Gateway, req: WebhookRequest, secret: Option<string>,
                         event: Event, now1: int, now2: int)
    requires HandleWebhook(db, gw, req, secret, Some(event), now1).response == HttpResponse(200, "Webhook received")
    ensures var first := HandleWebhook(db, gw, req, secret, Some(event), now1);
            HandleWebhook(first.db, gw, req, secret, Some(event), now2) ==
              WebhookOutcome(first.db, HttpResponse(200, "Already processed"), [])
  {
  }

  /** The ledger only grows: a webhook delivery never forgets an admitted event. */
  lemma LedgerOnlyGrows(db: Db, gw: Gateway, req: WebhookRequest, secret: Option<string>,
                        verified: Option<Event>, now: int, id: string)
    requires EventPath(id) in db
    ensures var r := HandleWebhook(db, gw, req, secret, verified, now);
            EventPath(id) in r.db && r.db[EventPath(id)] == db[EventPath(id)]
  {
    var r := HandleWebhook(db, gw, req, secret, verified, now);
    if r.response == HttpResponse(200, "Webhook received") {
      var event := verified.value;
      var admitted := Overwrite(db, EventPath(event.id), LedgerEntry(event, now));
      var e := EffectOf(event, gw, now);
      if e.MergeInto? {
        CollectionsAreDisjoint(id, "", e.uid);
      }
    }
  }

  /** A subscription update merges only its five fields: the customer id, the
      subscription id, the payment intent and every other field already in the
      record keep their values, and no other document changes. */
  lemma UpdatedPreservesOtherFields(db: Db, gw: Gateway, id: string, sub: Subscription, now: int, key: string)
    requires Present(sub.firebaseUid)
    requires WebhookRecordPath(sub.firebaseUid.value) in db
    requires key in db[WebhookRecordPath(sub.firebaseUid.value)] && key !in UpdatedKeys
    ensures var r := ProcessEvent(db, gw, Event(id, SubscriptionUpdated(sub)), now);
            var path := WebhookRecordPath(sub.firebaseUid.value);
            && r.Some?
            && r.value[path][key] == db[path][key]
            && r.value[path]["status"] == Str(sub.status)
            && r.value[path].Keys == db[path].Keys + UpdatedKeys
            && (forall p :: p in db && p != path ==> r.value[p] == db[p])
  {
  }

  /** A subscription deletion marks the record canceled and stamps `canceledAt`,
      leaving every other field as it was; without the user id it writes nothing. */
  lemma DeletedMarksCanceled(db: Db, gw: Gateway, id: string, sub: Subscription, now: int)
    ensures var r := ProcessEvent(db, gw, Event(id, SubscriptionDeleted(sub)), now);
            && r.Some?
            && (!Present(sub.firebaseUid) ==> r.value == db)
            && (Present(sub.firebaseUid) ==>
                  var path := WebhookRecordPath(sub.firebaseUid.value);
                  && r.value[path]["status"] == Str("canceled")
                  && r.value[path]["canceledAt"] == Iso(now)
                  && (forall k :: path in db && k in db[path] && k !in {"status", "canceledAt", "updatedAt"} ==>
                        r.value[path][k] == db[path][k]))
  {
  }

  /** The end-to-end checkout scenario: a first delivery of a completed recurring
      checkout for user `uid` with subscription `subId` leaves a record at the
      webhook path carrying the fetched subscription's status and that id. */
  lemma CheckoutSubscriptionScenario(db: Db, gw: Gateway, req: WebhookRequest, secret: Option<string>,
                                     event: Event, now: int)
    requires req.httpMethod == "POST" && Present(req.signature) && Present(secret) && gw.configured
    requires EventPath(event.id) !in db
    requires event.data.CheckoutCompleted?
    requires event.data.session.mode == "subscription" && Present(event.data.session.clientReferenceId)
    requires Retrieve(gw, event.data.session.subscription).Some?
    ensures var r := HandleWebhook(db, gw, req, secret, Some(event), now);
            var path := WebhookRecordPath(event.data.session.clientReferenceId.value);
            && r.response == HttpResponse(200, "Webhook received")
            && path in r.db
            && r.db[path]["status"] == Str(Retrieve(gw, event.data.session.subscription).value.status)
            && r.db[path]["subscriptionId"] == Str(event.data.session.subscription.value)
  {
    var s := event.data.session;
    var sub := Retrieve(gw, s.subscription).value;
    var record := SubscriptionRecord(s.subscription.value, sub, OrNull(s.customer), now);
    var admitted := Overwrite(db, EventPath(event.id), LedgerEntry(event, now));
    CheckoutSubscriptionEffect(event, gw, now);
    assert ProcessEvent(admitted, gw, event, now) == Some(Merge(admitted, WebhookRecordPath(s.clientReferenceId.value), record));
  }

  /** The checkout branch for a recurring session whose subscription is found
      merges that subscription's record for the session's user. */
  lemma CheckoutSubscriptionEffect(event: Event, gw: Gateway, now: int)
    requires event.data.CheckoutCompleted?
    requires event.data.session.mode == "subscription" && Present(event.data.session.clientReferenceId)
    requires Retrieve(gw, event.data.session.subscription).Some?
    ensures var s := event.data.session;
            EffectOf(event, gw, now)
              == MergeInto(s.clientReferenceId.value,
                           SubscriptionRecord(s.subscription.value, Retrieve(gw, s.subscription).value, OrNull(s.customer), now))
  {
  }

  /** As written, the webhook writes `users/{uid}/subscription` and never the
      `users/{uid}/subscription/status` record that verification, sync and
      cancellation read: whatever the delivery, every status record is left as it was. */
  lemma WebhookLeavesStatusRecords(db: Db, gw: Gateway, req: WebhookRequest, secret: Option<string>,
                                   verified: Option<Event>, now: int, uid: string)
    ensures var r := HandleWebhook(db, gw, req, secret, verified, now);
            (StatusPath(uid) in r.db <==> StatusPath(uid) in db)
            && (StatusPath(uid) in db ==> r.db[StatusPath(uid)] == db[StatusPath(uid)])
  {
    var r := HandleWebhook(db, gw, req, secret, verified, now);
    if r.response == HttpResponse(200, "Webhook received") {
      var event := verified.value;
      var admitted := Overwrite(db, EventPath(event.id), LedgerEntry(event, now));
      CollectionsAreDisjoint(event.id, "", uid);
      var e := EffectOf(event, gw, now);
      if e.MergeInto? {
        StatusPathIsNotWebhookPath(uid, e.uid);
      }
    }
  }
}
